=== FILE: README.md ===
# ome compiler core in Dafny

A model of the core of the ome compiler (Object Message Expressions) and of
three of its runtime array methods, with proofs of what they guarantee.

On the compiler side the model covers the work `Program` does between
parsing and code generation:

- It encodes string literals into the data table: a 32-bit length header, the
  UTF-8 bytes, then nul padding to an 8-byte boundary.
- It interns those strings in an append-only, memoising data table.
- It numbers regular blocks and constant blocks with tags, in two separate
  spaces, each with its own capacity check.
- It computes liveness: `sent_messages` and `called_methods`, and from them
  which methods survive.
- It computes traceback information for send sites: the corrected column, the
  underline length, and the interned header and source line.
- It groups the surviving methods into the code table, sorted by symbol.
- It decides which messages get a dispatcher when the assembly is generated.

On the runtime side it covers the tagged-value layout constants (each
written as its value, with a lemma proving it equal to the source's
derivation), and the array
methods `size`, `at:` and `+`, over arrays modelled as `seq<Value>`.

The names defined outside the core are fields of an `Ast.Env` record and stay
abstract:

- `Tag_User`
- `Constant_User`
- `constant_to_tag`
- `make_call_label`
- code generation for a method

The constant-number-to-tag map is assumed to be injective on the numbers the
allocator hands out and to map them at or above `MIN_CONSTANT_TAG`. This is the
predicate `Tags.ConstantTagMapOk`, an assumption about code outside the core.
`Tags.ConstantTagMapSatisfiable` shows that some map meets it.

Modules, one per file:

| module | covers |
|---|---|
| `Wrappers` | `Option` and `Result` |
| `Errors` | the four reasons compilation stops |
| `Constants` | `ome/constants.py` |
| `Utf8` | UTF-8 encoding and decoding |
| `DataTable` | `encode_string_data` and `DataTable` |
| `Ast` | the records the core reads |
| `Tags` | tag allocation |
| `Liveness` | `find_used_methods` and `should_include_method` |
| `Traceback` | `compile_traceback_info` |
| `StringOrder` | the order `sorted` uses |
| `CodeTable` | `build_code_table` |
| `Emitter` | the method section of `generate_assembly` |
| `Compiler` | the constructor pipeline and the generated program |
| `ArrayMethods` | `ome/builtins/array.c` |

Two details of the source that the model keeps:

- Traceback information is computed for every send that has a parse state,
  including sends to a known receiver (`ome/compiler.py:138-139`).
- The string length is written with `struct.pack('I', ...)`, in the machine's
  byte order. The model writes it little-endian, the byte order of the x86-64
  target.

## Model

| member | source | states |
|---|---|---|
| Constants.WordLayout | ome/constants.py:4-8 | The data field is 44 bits and the significand 36. Tag bits plus data bits fill the 64-bit word, and exponent plus significand fill the data field. |
| Constants.Derived | ome/constants.py:9-30 | Each derived constant, written as its value, equals the power-of-two expression the source computes it from. So `MIN_CONSTANT_TAG` is `MASK_TAG + 1`, strictly above `MAX_TAG`, and `MIN_CONSTANT_TAG + MAX_CONSTANT_TAG` is 2^32-1: the highest constant tag fits an unsigned 32-bit word. |
| Constants.ErrorBitLayout | ome/constants.py:9-16 | `ERROR_BIT` is the top bit of the 20-bit tag mask. `MAX_TAG` lies below the error bit, so no tag up to `MAX_TAG` has the error bit set. |
| Constants.SignedRoundTrip | ome/constants.py:20-25 | An integer lies in [-2^(w-1), 2^(w-1)-1] exactly when storing its low w bits and reading them back signed gives it back. |
| Constants.SmallIntegerRange | ome/constants.py:20-21 | The small-integer range is exactly the 44-bit two's-complement range. It holds `MASK_DATA + 1` = 2^44 values. |
| Constants.FloatFieldRanges | ome/constants.py:22-30 | The exponent and significand ranges are the two's-complement ranges of 8 and 36 bits. Every mask is all ones across its field's width. |
| Constants.TaggedWord | ome/constants.py:4-6 | A tag placed above a 44-bit data field gives a 64-bit word. Dividing by 2^44 recovers the tag, and the remainder recovers the data. |
| Utf8.DecodeEncode | ome/compiler.py:29 | Decoding the UTF-8 encoding of any string gives back that string. |
| Utf8.EncodeInjective | ome/compiler.py:29 | Two strings with the same UTF-8 encoding are equal, so memoising by content is the same as memoising by bytes. |
| DataTable.EncodeStringData | ome/compiler.py:27-32 | Encoding fails exactly when the UTF-8 length does not fit 32 bits. Otherwise the output is 4 header bytes holding the UTF-8 length, then exactly the UTF-8 bytes, then 1 to 8 zero bytes, and its total length is a multiple of 8. |
| DataTable.ReadLe32Le32 | ome/compiler.py:29 | Reading back the 4-byte little-endian header of any length up to 2^32-1 gives that length. |
| DataTable.DecodeEncodeStringData | ome/compiler.py:29-31 | Reading the header and then the payload of an encoded string recovers its UTF-8 bytes and the string, whatever bytes follow. |
| DataTable.AppendData | ome/compiler.py:40-44 | Appending returns the old size as the offset and grows the size by the chunk length. Earlier chunks stay as they were. A table whose size is the total chunk length still is, with the chunk appended to its contents. |
| DataTable.AllocateStringOffset | ome/compiler.py:46-50 | A string already stored returns its old offset and leaves the table unchanged. A new string is encoded and appended at the old size as exactly one new chunk, and that offset is memoised. The table stays consistent and 8-byte aligned, and the stored blob decodes back to the string. |
| DataTable.AllocateTwice | ome/compiler.py:46-50 | Allocating the same string a second time returns the same offset and the same table. |
| DataTable.ReadBack | ome/compiler.py:40-50 | In a consistent table, decoding the bytes at a string's memoised offset gives back that string. |
| DataTable.AlignedSize | ome/compiler.py:31-44 | In a table built from encoded strings, the size, and so the next offset, is a multiple of 8. |
| DataTable.AllocateHi | ome/compiler.py:27-50 | In a fresh table, `"hi"` gets offset 0 and takes 8 bytes: a 4-byte header, 2 bytes of text and 2 bytes of padding. |
| Tags.Assign | ome/compiler.py:102-119 | One numbering pass keeps the block list's length. Its counter ends at the start value plus the number of blocks of the kind being counted. |
| Tags.AssignAt | ome/compiler.py:102-119 | After one pass, each block of the kind being counted carries the start value plus the number of such blocks before it. A constant block gets that number and `constant_to_tag` of it as its tag. All other blocks are untouched. |
| Tags.AllocateTagIds | ome/compiler.py:102-109 | Regular blocks get tags `Tag_User`, `Tag_User+1`, … in block-list order, and constant blocks are untouched. The pass fails with the tag-exhaustion error exactly when `Tag_User` plus the number of regular blocks exceeds `MAX_TAG`. Each tag handed out lies in [`Tag_User`, `MAX_TAG`). |
| Tags.AllocateConstantTagIds | ome/compiler.py:111-119 | Constant blocks get constant numbers `Constant_User`, `Constant_User+1`, … in order, each with tag `constant_to_tag` of its number, and regular blocks are untouched. The pass fails exactly when the counter after the loop exceeds `MAX_CONSTANT_TAG`. |
| Tags.AllocateAll | ome/compiler.py:87-88 | Running both passes in order fails exactly when either capacity is exceeded. When the regular pass overflows the error is the regular-tag exhaustion, and otherwise a constant-pass overflow gives the constant-tag exhaustion. The methods and the constant flag of every block are kept. |
| Tags.TagsDistinct | ome/compiler.py:102-119 | Under the assumption on `constant_to_tag`, after both passes no two blocks share a tag. Regular tags lie in [`Tag_User`, `MAX_TAG`) and constant tags at or above `MIN_CONSTANT_TAG`. |
| Tags.RegularTagsOnto | ome/compiler.py:102-109 | Every value from `Tag_User` up to `Tag_User` plus the number of regular blocks, exclusive, is the tag of some regular block. |
| Liveness.IncludeMonotone | ome/compiler.py:167-168 | A method kept under some sent and called sets is also kept under any larger sets. |
| Liveness.InitialSent | ome/compiler.py:122-124 | Before the builtin pass, `sent_messages` holds exactly `string` and the symbol of every send whose receiver is unknown. |
| Liveness.DirectCalls | ome/compiler.py:129-131 | The calls recorded are exactly the (receiver tag, symbol) pairs of sends to a known receiver whose symbol is not already in the initial `sent_messages`. |
| Liveness.BuiltinPass | ome/compiler.py:133-135 | The builtin pass only adds messages that some builtin declares. Every added message is declared by a builtin that `should_include_method` keeps under the final sets. A builtin that is kept under the sets as they stood before the pass has all of its declared messages added. |
| Liveness.BuiltinPassSnoc | ome/compiler.py:133-135 | The pass is one visit per builtin, in list order. Running it over one more builtin is one more step on the sets the earlier builtins left: that builtin adds its non-empty declared messages exactly when it is kept under those sets. |
| Liveness.FindUsedMethods | ome/compiler.py:121-135 | `sent_messages` holds `string` and every symbol sent to an unknown receiver, and contains the initial set. Every builtin kept under the initial sets has all of its declared messages in `sent_messages`. Every message beyond the initial set is declared by a builtin that the final sets keep. `called_methods` holds exactly (top-level tag, `main`) and the recorded direct calls, and the builtin pass leaves it unchanged. |
| Liveness.SendTargetsIncluded | ome/compiler.py:121-135 | For a send to an unknown receiver, any block's method with that symbol is kept. For a send to a known receiver, the receiver's method with that symbol is kept. |
| Liveness.StaticSendRecorded | ome/compiler.py:129-131 | A message sent to a known receiver that gets no dispatcher is recorded as a direct call to that receiver. |
| Liveness.BuiltinPassNotClosed | ome/compiler.py:133-135 | The pass is a single pass, not a fixed point. In the counterexample, a builtin that becomes live only through a later builtin is left with its own messages missing. |
| Traceback.RStrip | ome/compiler.py:144 | `rstrip()` keeps a prefix of the line that is empty or does not end in whitespace. |
| Traceback.RStripRemovesSpaces | ome/compiler.py:144 | Everything `rstrip()` removes is whitespace, so the prefix kept is the longest one not ending in whitespace. |
| Traceback.LStrip | ome/compiler.py:145 | `lstrip()` keeps a suffix of the line that is empty or does not start with whitespace. |
| Traceback.LStripRemovesSpaces | ome/compiler.py:145 | Everything `lstrip()` removes is whitespace, so the suffix kept is the longest one not starting with whitespace. |
| Traceback.ColumnPointsAtSameCharacter | ome/compiler.py:141-146 | When the parser's column lies in the visible text, the corrected column points at the same character in the printed line (four spaces of indent, then the trimmed line) as the original column did in the source line. |
| Traceback.Find | ome/compiler.py:148 | `str.find` returns -1 exactly when the character is absent. Otherwise it returns the position of its first occurrence. |
| Traceback.Underline | ome/compiler.py:148-150 | For a symbol containing `:`, the underline reaches up to and including the first `:`. For any other symbol it covers the whole symbol. |
| Traceback.ParseDecimalString | ome/compiler.py:141-142 | The line number written into the header reads back as the same number. |
| Traceback.SendTraceback | ome/compiler.py:138-157 | A send with a parse state gets a traceback whose id, column and underline are those of its parse state. Its header and trimmed line are interned and the traceback holds their offsets. A send without a parse state gets none and leaves the table as it was. Otherwise the memo gains exactly the header and the trimmed line. The arena gains exactly the encodings of whichever of them were new, once each, header first, and the size grows by their length. Nothing else is added, and the table stays consistent. |
| Traceback.InfosDescribeAt | ome/compiler.py:137-157 | The i-th traceback computed belongs to the i-th send: it is present exactly when that send has a parse state, and then describes it. |
| Traceback.CompileTracebackInfo | ome/compiler.py:137-157 | Every send's traceback is computed in send order, with the data table threaded through. Compilation succeeds when every string involved can be encoded. Each stored traceback still describes its send in the final table. The memo gains exactly the headers and trimmed lines of the sends with a parse state. The arena gains exactly the encodings of those not already memoised, each once, in first-use order, and the size grows by their total length. |
| DataTable.FreshMembers | ome/compiler.py:46-50 | The strings that interning a list one by one stores are exactly those of the list not already memoised, each once. |
| DataTable.FreshAppend | ome/compiler.py:46-50 | Interning `a` then `b` stores the fresh strings of `a`, then those of `b` that neither the memo nor `a` holds. |
| DataTable.InternedTrans | ome/compiler.py:46-50 | Interning one list and then another is interning their concatenation: the memo keys, the appended chunks and the size all compose. |
| DataTable.AllocateInterns | ome/compiler.py:46-50 | One `allocate_string_offset` call interns its string: the memo gains it, and the arena gains its encoding exactly when it was new. |
| StringOrder.SortedSet | ome/compiler.py:190 | `sorted` of a set of strings lists each element exactly once, in strictly increasing lexicographic order. |
| StringOrder.LessTotal | ome/compiler.py:190 | Any two distinct strings are ordered one way or the other. |
| StringOrder.LessTransitive | ome/compiler.py:190 | The string order is transitive. |
| CodeTable.BuiltinCandidates | ome/compiler.py:173-178 | A builtin method is listed exactly when it is kept under the builtin block's tag. It is listed under its own tag, with its label line prepended to its code. |
| CodeTable.BlockCandidates | ome/compiler.py:180-185 | A block method is listed exactly when it is kept under its block's tag. It is listed with its block's tag and the code compiled under its call label. |
| CodeTable.SelectMembers | ome/compiler.py:171-185 | An entry is among those listed under a symbol exactly when it was listed with that symbol. |
| CodeTable.SelectAppend | ome/compiler.py:171-185 | Appending to per-symbol lists in one loop after another lists, under each symbol, the first loop's entries before the second's. |
| CodeTable.Group | ome/compiler.py:171-185 | The dictionary built by the loops holds a symbol exactly when some entry was listed for it. Under each symbol it holds those entries in listing order. |
| CodeTable.BuildCodeTable | ome/compiler.py:170-192 | The code table's symbols are strictly sorted, so each appears once, and every list is non-empty. Each list is the kept builtin entries followed by the kept block entries for that symbol. An entry appears under a symbol exactly when it was listed for it. |
| CodeTable.CodeTableEntries | ome/compiler.py:167-192 | (tag, code) appears under symbol `s` exactly when a builtin or block method named `s` passes `should_include_method` and yields that entry. |
| CodeTable.BlockEntriesInBlockOrder | ome/compiler.py:180-185 | Under one symbol, the entries of an earlier block come before those of a later block. |
| Emitter.EmitTable | ome/compiler.py:207-216 | The set `dispatchers` ends as exactly the code-table symbols that are in `sent_messages`. |
| Emitter.Unimplemented | ome/compiler.py:218-220 | The messages warned about are exactly those in `sent_messages` that no code-table row lists. |
| Emitter.ExactlyOneDispatcher | ome/compiler.py:207-222 | In a code table with distinct symbols, every message in `sent_messages` gets exactly one dispatcher, whether or not a method implements it. No other message gets one. |
| Emitter.DispatcherTags | ome/compiler.py:209-211 | The dispatcher written for a code-table row switches on exactly the tags of that row's entries, in order. |
| Emitter.DispatcherSymbolsListed | ome/compiler.py:207-213 | The code-table loop writes dispatchers only for listed symbols that are in `sent_messages`. |
| Emitter.EveryCodeEmitted | ome/compiler.py:207-222 | The code of every code-table entry is written exactly once, in code-table order, whatever `sent_messages` holds. |
| Compiler.CompileProgram | ome/compiler.py:70-94 | Construction fails with the no-main error exactly when the top-level block has no `main` method. When `main` exists and tag allocation fails, construction fails with the allocator's error. It succeeds whenever `main` exists, both tag passes fit and every traceback string can be encoded. On success the blocks are the allocator's result, the data table is consistent and aligned, every send's traceback is recorded, and the code table is sorted with non-empty lists. |
| Compiler.MainCompiled | ome/compiler.py:126-128 | The top-level block's `main` method always survives. It is listed in the code table under `main` with the top-level block's tag. |
| Compiler.MainListed | ome/compiler.py:167-192 | A block whose `main` method is in `called_methods` has it listed in the code table under `main` with the block's tag. |
| Compiler.CompiledTagsDistinct | ome/compiler.py:87-88 | If the constant-number-to-tag map is injective and above the regular range, the blocks of a compiled program carry pairwise distinct tags. |
| Compiler.DataSection | ome/compiler.py:137-157 | The data section of a compiled program is exactly the encodings of the traceback strings, each once, in first-use order, and the memo holds exactly those strings. |
| Compiler.GenerateAssembly | ome/compiler.py:194-225 | `OME_main` is bound to the call label of the top-level block's `main`. Every message in `sent_messages` has exactly one dispatcher and no other message has one. Every method's code is written once, in code-table order. The data section is the bytes of the table the traceback pass leaves, and its length is a multiple of 8. |
| Compiler.SendDispatchers | ome/compiler.py:122-135 | In the generated program, `string` and every message sent to an unknown receiver get exactly one dispatcher. A message sent only to known receivers gets none unless a builtin that the final sets keep declares it. |
| Compiler.BuiltinMessagesDispatched | ome/compiler.py:133-135 | In the generated program, every message declared by a builtin that is kept under the sets the builtin pass starts from gets exactly one dispatcher. |
| Compiler.SentSymbols | ome/compiler.py:122-135 | `sent_messages` holds `string`, every message sent to an unknown receiver, and every sent message that a builtin kept under the initial sets declares. It holds no message that is sent only to known receivers unless a builtin that the final sets keep declares it. |
| ArrayMethods.TagInteger | ome/builtins/array.c:9 | Tagging an integer yields a small integer in the 44-bit range. The number is unchanged exactly when it already lies in that range. |
| ArrayMethods.Size | ome/builtins/array.c:6-10 | `size` is a small integer. For any array of at most `UINT32_MAX` elements it is exactly the element count. |
| ArrayMethods.At | ome/builtins/array.c:12-23 | A non-integer index is a type error whatever the array, empty ones included, so the type check comes before the bounds check. An integer index below 0 or at least the size is an index error. Otherwise the result is the element at that index. |
| ArrayMethods.Concat | ome/builtins/array.c:66-94 | A non-array right operand is a type error. The result is an error exactly then, or when both operands are non-empty and their sizes sum past `UINT32_MAX`, which is a size error. Every other result is an array of `self`'s elements followed by `rhs`'s. An empty right operand returns `self`, and otherwise an empty `self` returns `rhs`. |
| ArrayMethods.ConcatAt | ome/builtins/array.c:86-93 | Indexing a concatenation below the left operand's size reads the left operand. From there on it reads the right operand, shifted. A negative index is an index error. |
| ArrayMethods.ConcatSize | ome/builtins/array.c:79-93 | Concatenating arrays of at most `UINT32_MAX` elements gives one whose `size` is the sum of the sizes, and still at most `UINT32_MAX`. |
| ArrayMethods.PlusAssociative | ome/builtins/array.c:66-94 | When the total size fits, `+` succeeds and is associative. |
| ArrayMethods.PlusIdentity | ome/builtins/array.c:73-78 | The empty array is a left and right identity of `+`. |

## Left out

- Parsing, files and the toolchain are not modelled. `parse_file`, `compile_file`, `compile_file_to_assembly`, `run_assembler` and `run_linker` (`ome/compiler.py:227-272`) are file I/O, the parser and subprocesses.
- The block list and send list are inputs (`Compiler.Input`). They come from `collect_nodes_of_type` and `ast.walk`, whose traversal order is defined in code that is not part of this model.
- A send's receiver block is given as a position in the block list, and the enclosing method by its symbol. Direct sends to the builtin block are not modelled. The builtin block is passed to the constructor beside the AST (`ome/compiler.py:70-72`), so it is not among the collected blocks, and no send of the model names it statically. The `(self.builtin.tag, symbol)` entries that `ome/compiler.py:134` and `:174` look up in `called_methods` arise in the model only when a list block carries the builtin tag. Whether the AST can resolve a receiver to the builtin block is decided in code that is not part of this model.
- Code generation and labels stay abstract. `compile_method`, `compile_method_with_label`, `make_call_label` and `generate_dispatcher` are functions in `Ast.Env`, or are left as the dispatcher's symbol and tag list (`Emitter.Item`). The generated text is opaque.
- Only part of `generate_assembly` is modelled. The `#define` lines for constants, the builtin macros, code and data, the `OME_toplevel` method and the text of `DataTable.generate_assembly` are output formatting. The model keeps the main label, the method section and the data bytes as the traceback pass leaves them.
- Compiler.GenerateAssembly: the data bytes leave out the literals that code generation interns. `method.generate_code(self.data_table)` (`ome/compiler.py:160`) runs from `build_code_table` (line 186) and `generate_assembly` (line 204) and may add entries to the table. Code generation is an opaque function of `Ast.Env` that does not receive the table, so the model promises nothing about those entries.
- `Program.warning` writes to stderr. The set of warned messages is modelled (`Emitter.Unimplemented`); the output is not.
- `Emitter.MethodSection`: the empty fallback dispatchers at `ome/compiler.py:218-222` are written in the iteration order of a Python set, which is unspecified. The model writes them in sorted order. Each fallback is stated as a set-level and count-level property, not as an output order.
- `DataTable.allocate_string` only formats the offset into a label string.
- Errors are values: the model returns an error where the source raises `OmeFileError`. A further failure, `struct.pack` refusing a UTF-8 length of 2^32 or more, becomes `StringTooLong`.
- Strings are sequences of Unicode scalar values, because a Dafny `char` cannot be a surrogate. `.encode('utf8')` (`ome/compiler.py:29`) raises `UnicodeEncodeError` on a lone surrogate, which a surrogate-escaped file name can carry into `file_info` (`ome/compiler.py:141-142`). That error is not modelled.
- The top-level block is given by position. Picking the last statement of a top-level `Sequence` (`ome/compiler.py:76-77`) belongs to the AST.
- `Array each:`, `enumerate:` and `sorted` (`ome/builtins/array.c:25-64`, `96-119`) are not modelled. They call methods looked up at run time, keep GC-rooted locals and sort with `qsort` and a user comparator.
- `ArrayMethods.TagInteger`: `OME_tag_integer` is not defined in the files modelled here. The model reads it as 44-bit truncation followed by sign extension. Only the in-range case, where the number is unchanged, is relied on.
- Values are modelled by kind, not as tagged bit patterns. `OME_untag_pointer`, `OME_untag_signed`, `memcpy` and allocation are pointer-level detail. The array size field is taken to be unbounded, and a `size_t` sum of two array sizes is taken not to wrap, since no array comes near 2^63 elements.
- The CLI (`ome/__main__.py`, `ome/command.py`) and the GCC backend flags (`ome/target/lang_c/backend_gcc.py`) are not modelled.

=== FILE: array_methods.dfy ===
/** The runtime's array methods `size`, `at:` and `+`. Values are modelled
    by what they are rather than by their tagged bit patterns: a small
    integer, an array of values, an error value of some kind, or any other
    object. */
module ArrayMethods {
  import opened Constants

  /** The error kinds these methods can return. */
  datatype ErrorKind = TypeError | IndexError | SizeError

  /** A runtime value. An array element may itself be any value. */
  datatype Value =
    | SmallInteger(n: int)
    | Array(elems: seq<Value>)
    | ErrorValue(kind: ErrorKind)
    | OtherObject(tag: int)

  /** `OME_tag_integer`, whose definition is not part of this model. It is
      read here as storing the number in the 44-bit data field and reading
      it back signed, so that a number out of range would wrap; only the
      in-range case, where the number is unchanged, is relied on. */
  function TagInteger(x: int): (r: Value)
    ensures r.SmallInteger? && MIN_SMALL_INTEGER <= r.n <= MAX_SMALL_INTEGER
    ensures MIN_SMALL_INTEGER <= x <= MAX_SMALL_INTEGER <==> r == SmallInteger(x)
  {
    SmallIntegerRange(x);
    SmallInteger(SignExtend(LowBits(x, NUM_DATA_BITS), NUM_DATA_BITS))
  }

  /** `Array size`: the element count as a tagged integer. */
  function Size(self: seq<Value>): (r: Value)
    ensures r.SmallInteger?
    ensures |self| <= UINT32_MAX ==> r == SmallInteger(|self|)
  {
    TagInteger(|self|)
  }

  /** `Array at:`: a non-integer index is a type error, whatever the array;
      only then is the index checked against the bounds. */
  function At(self: seq<Value>, index: Value): (r: Value)
    ensures !index.SmallInteger? ==> r == ErrorValue(TypeError)
    ensures index.SmallInteger? && !(0 <= index.n < |self|) ==> r == ErrorValue(IndexError)
    ensures index.SmallInteger? && 0 <= index.n < |self| ==> r == self[index.n]
  {
    if !index.SmallInteger? then ErrorValue(TypeError)
    else if index.n < 0 || index.n >= |self| then ErrorValue(IndexError)
    else self[index.n]
  }

  /** `Array +`: the right operand must be an array; an empty operand is
      returned as it is; a result longer than UINT32_MAX is a size error;
      otherwise a new array holding both operands' elements in order. */
  function Concat(self: seq<Value>, rhs: Value): (r: Value)
    ensures !rhs.Array? ==> r == ErrorValue(TypeError)
    ensures r.ErrorValue? <==>
              !rhs.Array? || (self != [] && rhs.elems != [] && |self| + |rhs.elems| > UINT32_MAX)
    ensures r.ErrorValue? && rhs.Array? ==> r == ErrorValue(SizeError)
    ensures !r.ErrorValue? ==> r.Array? && r.elems == self + rhs.elems
    ensures rhs.Array? && rhs.elems == [] ==> r == Array(self)
    ensures rhs.Array? && self == [] ==> r == rhs
  {
    if !rhs.Array? then ErrorValue(TypeError)
    else if |rhs.elems| == 0 then
      assert self + rhs.elems == self;
      Array(self)
    else if |self| == 0 then
      assert self + rhs.elems == rhs.elems;
      rhs
    else if |self| + |rhs.elems| > UINT32_MAX then ErrorValue(SizeError)
    else Array(self + rhs.elems)
  }

  /** `+` sent to an array value. */
  function Plus(x: Value, y: Value): Value
    requires x.Array?
  {
    Concat(x.elems, y)
  }

  /** Indexing the concatenation reads the left operand below its length
      and the right operand, shifted, above it; out of range on both sides
      it is an index error. */
  lemma ConcatAt(a: seq<Value>, b: seq<Value>, i: int)
    requires Concat(a, Array(b)).Array?
    ensures var c := Concat(a, Array(b)).elems;
            && (0 <= i < |a| ==> At(c, SmallInteger(i)) == At(a, SmallInteger(i)))
            && (|a| <= i ==> At(c, SmallInteger(i)) == At(b, SmallInteger(i - |a|)))
            && (i < 0 ==> At(c, SmallInteger(i)) == ErrorValue(IndexError))
  {
  }

  /** The size of a successful concatenation is the sum of the sizes. */
  lemma ConcatSize(a: seq<Value>, b: seq<Value>)
    requires |a| <= UINT32_MAX && |b| <= UINT32_MAX
    requires Concat(a, Array(b)).Array?
    ensures Size(Concat(a, Array(b)).elems) == SmallInteger(|a| + |b|)
    ensures |Concat(a, Array(b)).elems| <= UINT32_MAX
  {
  }

  /** `+` is associative on arrays whose total size fits. */
  lemma PlusAssociative(a: seq<Value>, b: seq<Value>, c: seq<Value>)
    requires |a| + |b| + |c| <= UINT32_MAX
    ensures Plus(Array(a), Array(b)).Array? && Plus(Array(b), Array(c)).Array?
    ensures Plus(Plus(Array(a), Array(b)), Array(c)) == Plus(Array(a), Plus(Array(b), Array(c)))
  {
    assert (a + b) + c == a + (b + c);
  }

  /** The empty array is a two-sided identity of `+`. */
  lemma PlusIdentity(a: seq<Value>)
    ensures Plus(Array(a), Array([])) == Array(a)
    ensures Plus(Array([]), Array(a)) == Array(a)
  {
  }
}

=== FILE: ast.dfy ===
/** The parts of the parsed program the compiler core reads: blocks with
    their methods, message-send sites, builtin methods of the target, and
    the collaborators defined outside the core. */
module Ast {
  import opened Wrappers

  /** A method of a block. `body` stands for the method's AST, which only
      code generation looks at. */
  datatype Method = Method(symbol: string, body: string)

  /** An object-defining block. `tag` and `tagConstant` hold whatever the
      tag allocator last wrote into them. */
  datatype Block = Block(methods: seq<Method>, isConstant: bool, tag: int, tagConstant: int)

  /** The message symbols a block answers. */
  function Symbols(b: Block): set<string> {
    set i | 0 <= i < |b.methods| :: b.methods[i].symbol
  }

  /** A method supplied by the target: its owner tag, symbol, assembly text,
      and the messages its code may itself send. */
  datatype BuiltinMethod = BuiltinMethod(tag: int, symbol: string, code: string, sentMessages: set<string>)

  /** Where a send site was parsed: stream name, line number, column and the
      text of the whole line. */
  datatype ParseState = ParseState(streamName: string, lineNumber: nat, column: int, currentLine: string)

  /** A message-send site. `receiver` is the position in the block list of
      the statically known receiver block, if there is one; `methodSymbol`
      names the method the send occurs in. */
  datatype Send = Send(symbol: string, receiver: Option<nat>, parseState: Option<ParseState>, methodSymbol: string)

  /** Every statically known receiver is one of the program's blocks. */
  predicate ReceiversValid(sends: seq<Send>, numBlocks: nat) {
    forall i :: 0 <= i < |sends| && sends[i].receiver.Some? ==> sends[i].receiver.value < numBlocks
  }

  /** The collaborators defined outside the core: the first user tag and
      first user constant number, the map from constant numbers to tags,
      the label of a method for a tag, and code generation for a method
      under a label. */
  datatype Env = Env(
    tagUser: int,
    constantUser: int,
    constantToTag: int -> int,
    callLabel: (int, string) -> string,
    compile: (Method, string) -> string)
}

=== FILE: code_table.dfy ===
/** The code table: every method that survives the liveness analysis,
    grouped by message symbol, symbols in sorted order. */
module CodeTable {
  import opened Ast
  import opened Liveness
  import opened StringOrder

  /** One implementation of a message: the owning tag and its assembly. */
  type Entry = (int, string)

  /** An implementation waiting to be grouped under its symbol. */
  type Candidate = (string, Entry)

  /** A builtin method as listed: labelled with its own tag. */
  function BuiltinCandidate(m: BuiltinMethod, env: Env): Candidate {
    (m.symbol, (m.tag, env.callLabel(m.tag, m.symbol) + ":\n" + m.code))
  }

  /** A block method as listed: compiled under the label for the block's tag. */
  function BlockCandidate(b: Block, m: Method, env: Env): Candidate {
    (m.symbol, (b.tag, env.compile(m, env.callLabel(b.tag, m.symbol))))
  }

  /** The builtin methods kept, in target order. Inclusion is decided with
      the builtin block's tag. */
  function BuiltinCandidates(builtins: seq<BuiltinMethod>, builtinTag: int, u: Usage, env: Env)
    : (r: seq<Candidate>)
    ensures forall c :: c in r <==>
              exists i :: 0 <= i < |builtins| && ShouldInclude(builtins[i].symbol, builtinTag, u.sent, u.called)
                          && c == BuiltinCandidate(builtins[i], env)
  {
    if builtins == [] then []
    else
      var rest := BuiltinCandidates(builtins[1..], builtinTag, u, env);
      assert forall i :: 1 <= i < |builtins| ==> builtins[i] == builtins[1..][i - 1];
      if ShouldInclude(builtins[0].symbol, builtinTag, u.sent, u.called)
      then [BuiltinCandidate(builtins[0], env)] + rest
      else rest
  }

  /** The methods of block `b` kept, in method order. */
  function MethodCandidates(b: Block, methods: seq<Method>, u: Usage, env: Env): (r: seq<Candidate>)
    ensures forall c :: c in r <==>
              exists k :: 0 <= k < |methods| && ShouldInclude(methods[k].symbol, b.tag, u.sent, u.called)
                          && c == BlockCandidate(b, methods[k], env)
  {
    if methods == [] then []
    else
      var rest := MethodCandidates(b, methods[1..], u, env);
      assert forall k :: 1 <= k < |methods| ==> methods[k] == methods[1..][k - 1];
      if ShouldInclude(methods[0].symbol, b.tag, u.sent, u.called)
      then [BlockCandidate(b, methods[0], env)] + rest
      else rest
  }

  /** The block methods kept, in block-list order. */
  function BlockCandidates(blocks: seq<Block>, u: Usage, env: Env): (r: seq<Candidate>)
    ensures forall c :: c in r <==>
              exists j, k :: 0 <= j < |blocks| && 0 <= k < |blocks[j].methods|
                             && ShouldInclude(blocks[j].methods[k].symbol, blocks[j].tag, u.sent, u.called)
                             && c == BlockCandidate(blocks[j], blocks[j].methods[k], env)
  {
    if blocks == [] then []
    else
      var rest := BlockCandidates(blocks[1..], u, env);
      assert forall j :: 1 <= j < |blocks| ==> blocks[j] == blocks[1..][j - 1];
      MethodCandidates(blocks[0], blocks[0].methods, u, env) + rest
  }

  /** The entries listed under `s`, in list order. */
  function Select(cands: seq<Candidate>, s: string): (r: seq<Entry>)
    ensures |r| <= |cands|
  {
    if cands == [] then [] else (if cands[0].0 == s then [cands[0].1] else []) + Select(cands[1..], s)
  }

  /** The entries listed under `s` are exactly those of the candidates
      named `s`. */
  lemma {:induction false} SelectMembers(cands: seq<Candidate>, s: string)
    ensures forall e :: e in Select(cands, s) <==> (s, e) in cands
  {
    if cands != [] {
      SelectMembers(cands[1..], s);
      assert forall c :: c in cands <==> c == cands[0] || c in cands[1..];
    }
  }

  lemma {:induction false} SelectAppend(a: seq<Candidate>, b: seq<Candidate>, s: string)
    ensures Select(a + b, s) == Select(a, s) + Select(b, s)
  {
    if a != [] {
      assert (a + b)[1..] == a[1..] + b;
      SelectAppend(a[1..], b, s);
    } else {
      assert a + b == b;
    }
  }

  /** The list under `s`, empty when there is none. */
  function Lookup(groups: map<string, seq<Entry>>, s: string): seq<Entry> {
    if s in groups then groups[s] else []
  }

  /** Appending `e` to the list under `s`, starting one if there is none. */
  function AddEntry(groups: map<string, seq<Entry>>, s: string, e: Entry): map<string, seq<Entry>> {
    groups[s := Lookup(groups, s) + [e]]
  }

  /** The grouping loop: each candidate appended under its symbol, in order. */
  function Group(groups: map<string, seq<Entry>>, cands: seq<Candidate>)
    : (r: map<string, seq<Entry>>)
    ensures forall s :: s in r <==> s in groups || Select(cands, s) != []
    ensures forall s :: s in r ==> r[s] == Lookup(groups, s) + Select(cands, s)
    decreases |cands|
  {
    if cands == [] then groups
    else
      var g := AddEntry(groups, cands[0].0, cands[0].1);
      var r := Group(g, cands[1..]);
      GroupStep(groups, cands, g, r);
      r
  }

  /** Each symbol paired with its group. */
  function Pairs(symbols: seq<string>, groups: map<string, seq<Entry>>): (r: seq<(string, seq<Entry>)>)
    requires forall x :: x in symbols ==> x in groups
    ensures |r| == |symbols|
    ensures forall i :: 0 <= i < |r| ==> r[i] == (symbols[i], groups[symbols[i]])
  {
    if symbols == [] then []
    else [(symbols[0], groups[symbols[0]])] + Pairs(symbols[1..], groups)
  }

  /** One turn of the grouping loop keeps the loop's invariant. */
  lemma GroupStep(groups: map<string, seq<Entry>>, cands: seq<Candidate>,
                  g: map<string, seq<Entry>>, r: map<string, seq<Entry>>)
    requires cands != [] && g == AddEntry(groups, cands[0].0, cands[0].1)
    requires forall s :: s in r <==> s in g || Select(cands[1..], s) != []
    requires forall s :: s in r ==> r[s] == Lookup(g, s) + Select(cands[1..], s)
    ensures forall s :: s in r <==> s in groups || Select(cands, s) != []
    ensures forall s :: s in r ==> r[s] == Lookup(groups, s) + Select(cands, s)
  {
    forall s
      ensures s in r <==> s in groups || Select(cands, s) != []
      ensures s in r ==> r[s] == Lookup(groups, s) + Select(cands, s)
    {
      if s == cands[0].0 {
        GroupStepHit(groups, cands, g, s);
      } else {
        GroupStepMiss(groups, cands, g, s);
      }
    }
  }

  /** The loop's invariant at the symbol of the candidate just appended:
      its list gained that candidate's entry, which `Select` now no longer
      has to supply. */
  lemma GroupStepHit(groups: map<string, seq<Entry>>, cands: seq<Candidate>,
                     g: map<string, seq<Entry>>, s: string)
    requires cands != [] && g == AddEntry(groups, cands[0].0, cands[0].1) && s == cands[0].0
    ensures s in g && Select(cands, s) != []
    ensures Lookup(g, s) + Select(cands[1..], s) == Lookup(groups, s) + Select(cands, s)
  {
    var e := cands[0].1;
    var rest := Select(cands[1..], s);
    assert Select(cands, s) == [e] + rest;
    assert Lookup(g, s) == Lookup(groups, s) + [e];
    assert (Lookup(groups, s) + [e]) + rest == Lookup(groups, s) + ([e] + rest);
  }

  /** The loop's invariant at any other symbol: nothing changes. */
  lemma GroupStepMiss(groups: map<string, seq<Entry>>, cands: seq<Candidate>,
                      g: map<string, seq<Entry>>, s: string)
    requires cands != [] && g == AddEntry(groups, cands[0].0, cands[0].1) && s != cands[0].0
    ensures s in g || Select(cands[1..], s) != [] <==> s in groups || Select(cands, s) != []
    ensures Lookup(g, s) + Select(cands[1..], s) == Lookup(groups, s) + Select(cands, s)
  {
    assert Select(cands, s) == Select(cands[1..], s);
    assert Lookup(g, s) == Lookup(groups, s);
  }

  /** The candidates grouped by symbol, symbols in sorted order. */
  function GroupBySymbol(cands: seq<Candidate>): (r: seq<(string, seq<Entry>)>)
    ensures forall i, j :: 0 <= i < j < |r| ==> Less(r[i].0, r[j].0)
    ensures forall i :: 0 <= i < |r| ==> r[i].1 != [] && r[i].1 == Select(cands, r[i].0)
    ensures forall s :: (exists i :: 0 <= i < |r| && r[i].0 == s) <==> Select(cands, s) != []
  {
    var groups := Group(map[], cands);
    var symbols := SortedSet(groups.Keys);
    var r := Pairs(symbols, groups);
    GroupBySymbolFacts(cands, groups, symbols, r);
    r
  }

  lemma GroupBySymbolFacts(cands: seq<Candidate>, groups: map<string, seq<Entry>>,
                           symbols: seq<string>, r: seq<(string, seq<Entry>)>)
    requires forall s :: s in groups <==> Select(cands, s) != []
    requires forall s :: s in groups ==> groups[s] == Select(cands, s)
    requires forall x :: x in symbols <==> x in groups
    requires forall i, j :: 0 <= i < j < |symbols| ==> Less(symbols[i], symbols[j])
    requires |r| == |symbols|
    requires forall i :: 0 <= i < |r| ==> r[i] == (symbols[i], groups[symbols[i]])
    ensures forall i, j :: 0 <= i < j < |r| ==> Less(r[i].0, r[j].0)
    ensures forall i :: 0 <= i < |r| ==> r[i].1 != [] && r[i].1 == Select(cands, r[i].0)
    ensures forall s :: (exists i :: 0 <= i < |r| && r[i].0 == s) <==> Select(cands, s) != []
  {
    forall i | 0 <= i < |r| ensures r[i].1 != [] && r[i].1 == Select(cands, r[i].0) {
      assert symbols[i] in symbols;
    }
    forall s ensures (exists i :: 0 <= i < |r| && r[i].0 == s) <==> Select(cands, s) != [] {
      if s in groups {
        var i :| 0 <= i < |symbols| && symbols[i] == s;
        assert r[i].0 == s;
      } else {
        forall i | 0 <= i < |r| ensures r[i].0 != s { assert symbols[i] in symbols; }
      }
    }
  }

  /** `build_code_table`: the kept builtin methods, then the kept block
      methods, grouped by symbol, symbols in sorted order. */
  function BuildCodeTable(builtins: seq<BuiltinMethod>, builtinTag: int, blocks: seq<Block>,
                          u: Usage, env: Env): (r: seq<(string, seq<Entry>)>)
    ensures forall i, j :: 0 <= i < j < |r| ==> Less(r[i].0, r[j].0)
    ensures forall i :: 0 <= i < |r| ==>
              && r[i].1 != []
              && r[i].1 == Select(BuiltinCandidates(builtins, builtinTag, u, env), r[i].0)
                            + Select(BlockCandidates(blocks, u, env), r[i].0)
    ensures forall s, e :: (exists i :: 0 <= i < |r| && r[i].0 == s && e in r[i].1) <==>
              (s, e) in BuiltinCandidates(builtins, builtinTag, u, env) + BlockCandidates(blocks, u, env)
  {
    var first := BuiltinCandidates(builtins, builtinTag, u, env);
    var second := BlockCandidates(blocks, u, env);
    var r := GroupBySymbol(first + second);
    GroupedConcat(first, second, r);
    r
  }

  /** Grouping a concatenation lists, under each symbol, the first part's
      entries and then the second's, and lists exactly the candidates. */
  lemma GroupedConcat(first: seq<Candidate>, second: seq<Candidate>, r: seq<(string, seq<Entry>)>)
    requires forall i :: 0 <= i < |r| ==> r[i].1 != [] && r[i].1 == Select(first + second, r[i].0)
    requires forall s :: (exists i :: 0 <= i < |r| && r[i].0 == s) <==> Select(first + second, s) != []
    ensures forall i :: 0 <= i < |r| ==> r[i].1 == Select(first, r[i].0) + Select(second, r[i].0)
    ensures forall s, e :: (exists i :: 0 <= i < |r| && r[i].0 == s && e in r[i].1) <==> (s, e) in first + second
  {
    forall i | 0 <= i < |r| ensures r[i].1 == Select(first, r[i].0) + Select(second, r[i].0) {
      SelectAppend(first, second, r[i].0);
    }
    forall s, e ensures (exists i :: 0 <= i < |r| && r[i].0 == s && e in r[i].1) <==> (s, e) in first + second {
      SelectMembers(first + second, s);
      if (s, e) in first + second {
        assert e in Select(first + second, s);
        var i :| 0 <= i < |r| && r[i].0 == s;
        assert e in r[i].1;
      }
    }
  }

  /** The entry (tag, code) is listed under `s` exactly when a builtin or
      block method named `s` is kept and yields that entry; nothing else is
      listed and nothing kept is dropped. */
  lemma CodeTableEntries(builtins: seq<BuiltinMethod>, builtinTag: int, blocks: seq<Block>,
                         u: Usage, env: Env, s: string, e: Entry)
    ensures var r := BuildCodeTable(builtins, builtinTag, blocks, u, env);
            (exists i :: 0 <= i < |r| && r[i].0 == s && e in r[i].1)
            <==>
            || (exists i :: 0 <= i < |builtins| && builtins[i].symbol == s
                            && ShouldInclude(s, builtinTag, u.sent, u.called)
                            && e == BuiltinCandidate(builtins[i], env).1)
            || (exists j, k :: 0 <= j < |blocks| && 0 <= k < |blocks[j].methods|
                               && blocks[j].methods[k].symbol == s
                               && ShouldInclude(s, blocks[j].tag, u.sent, u.called)
                               && e == BlockCandidate(blocks[j], blocks[j].methods[k], env).1)
  {
    var first := BuiltinCandidates(builtins, builtinTag, u, env);
    var second := BlockCandidates(blocks, u, env);
    var inFirst := exists i :: 0 <= i < |builtins| && builtins[i].symbol == s
                               && ShouldInclude(s, builtinTag, u.sent, u.called)
                               && e == BuiltinCandidate(builtins[i], env).1;
    var inSecond := exists j, k :: 0 <= j < |blocks| && 0 <= k < |blocks[j].methods|
                                   && blocks[j].methods[k].symbol == s
                                   && ShouldInclude(s, blocks[j].tag, u.sent, u.called)
                                   && e == BlockCandidate(blocks[j], blocks[j].methods[k], env).1;
    assert (s, e) in first <==> inFirst by {
      if inFirst {
        var i :| 0 <= i < |builtins| && builtins[i].symbol == s
                 && ShouldInclude(s, builtinTag, u.sent, u.called)
                 && e == BuiltinCandidate(builtins[i], env).1;
        assert (s, e) == BuiltinCandidate(builtins[i], env);
      }
    }
    assert (s, e) in second <==> inSecond by {
      if inSecond {
        var j, k :| 0 <= j < |blocks| && 0 <= k < |blocks[j].methods|
                    && blocks[j].methods[k].symbol == s
                    && ShouldInclude(s, blocks[j].tag, u.sent, u.called)
                    && e == BlockCandidate(blocks[j], blocks[j].methods[k], env).1;
        assert (s, e) == BlockCandidate(blocks[j], blocks[j].methods[k], env);
      }
    }
    assert (s, e) in first + second <==> (s, e) in first || (s, e) in second;
  }

  lemma {:induction false} BlockCandidatesSplit(blocks: seq<Block>, n: nat, u: Usage, env: Env)
    requires n <= |blocks|
    ensures BlockCandidates(blocks, u, env) == BlockCandidates(blocks[..n], u, env) + BlockCandidates(blocks[n..], u, env)
  {
    if n == 0 {
      assert blocks[..0] == [] && blocks[0..] == blocks;
    } else {
      BlockCandidatesSplit(blocks[1..], n - 1, u, env);
      assert blocks[..n][1..] == blocks[1..][..n - 1];
      assert blocks[1..][n - 1..] == blocks[n..];
      assert blocks[..n][0] == blocks[0];
    }
  }

  /** A kept block method is among the block candidates. */
  lemma KeptBlockMethodListed(blocks: seq<Block>, u: Usage, env: Env, j: nat, k: nat)
    requires j < |blocks| && k < |blocks[j].methods|
    requires ShouldInclude(blocks[j].methods[k].symbol, blocks[j].tag, u.sent, u.called)
    ensures BlockCandidate(blocks[j], blocks[j].methods[k], env) in BlockCandidates(blocks, u, env)
  {
  }

  /** A kept block method's entry is selected under its symbol. */
  lemma KeptEntrySelected(blocks: seq<Block>, u: Usage, env: Env, s: string, j: nat, k: nat)
    requires j < |blocks| && k < |blocks[j].methods| && blocks[j].methods[k].symbol == s
    requires ShouldInclude(s, blocks[j].tag, u.sent, u.called)
    ensures BlockCandidate(blocks[j], blocks[j].methods[k], env).1 in Select(BlockCandidates(blocks, u, env), s)
  {
    KeptBlockMethodListed(blocks, u, env, j, k);
    SelectMembers(BlockCandidates(blocks, u, env), s);
  }

  /** An element of the left part of a concatenation comes before an
      element of the right part. */
  lemma InOrder<T>(a: seq<T>, b: seq<T>, x: T, y: T)
    requires x in a && y in b
    ensures exists p1, p2 :: 0 <= p1 < p2 < |a + b| && (a + b)[p1] == x && (a + b)[p2] == y
  {
    var p1 :| 0 <= p1 < |a| && a[p1] == x;
    var q :| 0 <= q < |b| && b[q] == y;
    assert (a + b)[p1] == x && (a + b)[|a| + q] == y;
  }

  /** Under one symbol, the entries of an earlier block come before those
      of a later block. */
  lemma BlockEntriesInBlockOrder(blocks: seq<Block>, u: Usage, env: Env, s: string,
                                 j1: nat, k1: nat, j2: nat, k2: nat)
    requires j1 < j2 < |blocks| && k1 < |blocks[j1].methods| && k2 < |blocks[j2].methods|
    requires blocks[j1].methods[k1].symbol == s && blocks[j2].methods[k2].symbol == s
    requires ShouldInclude(s, blocks[j1].tag, u.sent, u.called)
    requires ShouldInclude(s, blocks[j2].tag, u.sent, u.called)
    ensures var sel := Select(BlockCandidates(blocks, u, env), s);
            exists p1, p2 :: 0 <= p1 < p2 < |sel|
                             && sel[p1] == BlockCandidate(blocks[j1], blocks[j1].methods[k1], env).1
                             && sel[p2] == BlockCandidate(blocks[j2], blocks[j2].methods[k2], env).1
  {
    var before := blocks[..j2];
    var after := blocks[j2..];
    BlockCandidatesSplit(blocks, j2, u, env);
    SelectAppend(BlockCandidates(before, u, env), BlockCandidates(after, u, env), s);
    assert before[j1] == blocks[j1];
    KeptEntrySelected(before, u, env, s, j1, k1);
    assert after[0] == blocks[j2];
    KeptEntrySelected(after, u, env, s, 0, k2);
    InOrder(Select(BlockCandidates(before, u, env), s), Select(BlockCandidates(after, u, env), s),
            BlockCandidate(blocks[j1], blocks[j1].methods[k1], env).1,
            BlockCandidate(blocks[j2], blocks[j2].methods[k2], env).1);
  }
}

=== FILE: compiler.dfy ===
/** The passes of `Program` in the order its constructor runs them, and the
    parts of `generate_assembly` the core decides: the main label, the
    method section and the data bytes. */
module Compiler {
  import opened Wrappers
  import opened Errors
  import opened Ast
  import opened Tags
  import opened Liveness
  import opened DataTable
  import opened Traceback
  import opened StringOrder
  import opened CodeTable
  import Emitter

  /** What the compiler starts from: the block list and send list in
      traversal order, the position of the top-level block in the block
      list, and the target's builtin methods with the builtin block's tag. */
  datatype Input = Input(
    blocks: seq<Block>, toplevel: nat, sends: seq<Send>,
    builtins: seq<BuiltinMethod>, builtinTag: int)

  /** The top-level block and every statically known receiver are blocks
      of the list, as the traversal that collects them guarantees. */
  predicate WellFormed(inp: Input) {
    inp.toplevel < |inp.blocks| && ReceiversValid(inp.sends, |inp.blocks|)
  }

  /** The state a constructed `Program` holds. */
  datatype Program = Program(
    blocks: seq<Block>, usage: Usage, tracebacks: seq<Option<TraceBackInfo>>,
    data: DataTable.Table, codeTable: seq<(string, seq<Entry>)>)

  /** What the constructor guarantees of the state it builds. */
  predicate Built(inp: Input, p: Program) {
    && |p.blocks| == |inp.blocks|
    && inp.toplevel < |p.blocks|
    && "main" in Symbols(p.blocks[inp.toplevel])
    && TracebacksOf(inp.sends, p.tracebacks, Empty(), p.data)
    && Interned(Empty(), TracebackStrings(inp.sends), p.data)
    && Valid(p.data) && Aligned(p.data)
    && (forall i, j :: 0 <= i < j < |p.codeTable| ==> Less(p.codeTable[i].0, p.codeTable[j].0))
    && (forall i :: 0 <= i < |p.codeTable| ==> p.codeTable[i].1 != [])
  }

  /** The passes after tag allocation, over the allocated blocks. */
  function Analyse(inp: Input, env: Env, blocks: seq<Block>): (r: Result<Program, CompileError>)
    requires |blocks| == |inp.blocks| && WellFormed(inp)
    requires "main" in Symbols(blocks[inp.toplevel])
    ensures (forall i :: 0 <= i < |inp.sends| ==> Encodable(inp.sends[i])) ==> r.Ok?
    ensures r.Err? ==> r.error == StringTooLong
    ensures r.Ok? ==> r.value.blocks == blocks && Built(inp, r.value)
  {
    var u := FindUsedMethods(blocks, inp.toplevel, inp.sends, inp.builtins, inp.builtinTag);
    var tracebacks :- CompileTracebackInfo(inp.sends, Empty());
    var table := BuildCodeTable(inp.builtins, inp.builtinTag, blocks, u, env);
    Ok(Program(blocks, u, tracebacks.0, tracebacks.1, table))
  }

  /** The constructor: the main-method check, both tag passes, liveness,
      tracebacks (interning their strings in a fresh data table) and the
      code table. */
  function CompileProgram(inp: Input, env: Env): (r: Result<Program, CompileError>)
    requires WellFormed(inp)
    ensures r == Err(NoMainMethod) <==> "main" !in Symbols(inp.blocks[inp.toplevel])
    ensures && "main" in Symbols(inp.blocks[inp.toplevel])
            && AllocateAll(inp.blocks, env).Ok?
            && (forall i :: 0 <= i < |inp.sends| ==> Encodable(inp.sends[i]))
            ==> r.Ok?
    ensures "main" in Symbols(inp.blocks[inp.toplevel]) && AllocateAll(inp.blocks, env).Err?
            ==> r == Err(AllocateAll(inp.blocks, env).error)
    ensures r.Ok? ==> r.value.blocks == AllocateAll(inp.blocks, env).value && Built(inp, r.value)
  {
    if "main" !in Symbols(inp.blocks[inp.toplevel]) then Err(NoMainMethod)
    else
      var blocks :- AllocateAll(inp.blocks, env);
      assert blocks[inp.toplevel].methods == inp.blocks[inp.toplevel].methods;
      Analyse(inp, env, blocks)
  }

  /** A compiled program's blocks carry pairwise distinct tags, so every
      (tag, message) label in its code table names one method. */
  lemma CompiledTagsDistinct(inp: Input, env: Env)
    requires WellFormed(inp) && ConstantTagMapOk(env)
    ensures CompileProgram(inp, env).Ok? ==>
              var bs := CompileProgram(inp, env).value.blocks;
              forall i, j :: 0 <= i < j < |bs| ==> bs[i].tag != bs[j].tag
  {
    if CompileProgram(inp, env).Ok? {
      TagsDistinct(inp.blocks, env);
    }
  }

  /** The top-level block's `main` method is always compiled: it is listed
      in the code table under `main` with the top-level block's tag. */
  lemma MainCompiled(inp: Input, env: Env)
    requires WellFormed(inp)
    ensures CompileProgram(inp, env).Ok? ==>
              var p := CompileProgram(inp, env).value;
              exists i :: 0 <= i < |p.codeTable| && p.codeTable[i].0 == "main"
                          && exists e :: e in p.codeTable[i].1 && e.0 == p.blocks[inp.toplevel].tag
  {
    if CompileProgram(inp, env).Ok? {
      var p := CompileProgram(inp, env).value;
      CompiledParts(inp, env);
      MainListed(inp.builtins, inp.builtinTag, p.blocks, p.usage, env, inp.toplevel);
    }
  }

  /** The usage and the code table a successful compilation holds are the
      passes' results over its allocated blocks. */
  lemma CompiledParts(inp: Input, env: Env)
    requires WellFormed(inp)
    ensures CompileProgram(inp, env).Ok? ==>
            var p := CompileProgram(inp, env).value;
            && p.usage == FindUsedMethods(p.blocks, inp.toplevel, inp.sends, inp.builtins, inp.builtinTag)
            && p.codeTable == BuildCodeTable(inp.builtins, inp.builtinTag, p.blocks, p.usage, env)
  {
    if CompileProgram(inp, env).Ok? {
      var blocks := AllocateAll(inp.blocks, env).value;
      assert CompileProgram(inp, env) == Analyse(inp, env, blocks);
    }
  }

  /** A block whose `main` is called is listed under `main` with its tag. */
  lemma MainListed(builtins: seq<BuiltinMethod>, builtinTag: int, blocks: seq<Block>,
                   u: Usage, env: Env, t: nat)
    requires t < |blocks| && "main" in Symbols(blocks[t]) && (blocks[t].tag, "main") in u.called
    ensures var r := BuildCodeTable(builtins, builtinTag, blocks, u, env);
            exists i :: 0 <= i < |r| && r[i].0 == "main" && exists e :: e in r[i].1 && e.0 == blocks[t].tag
  {
    var k :| 0 <= k < |blocks[t].methods| && blocks[t].methods[k].symbol == "main";
    var e := BlockCandidate(blocks[t], blocks[t].methods[k], env).1;
    assert ShouldInclude("main", blocks[t].tag, u.sent, u.called);
    CodeTableEntries(builtins, builtinTag, blocks, u, env, "main", e);
  }

  /** What `generate_assembly` writes that the core decides: the label
      `OME_main` is bound to, the method section and the data bytes. */
  datatype Assembly = Assembly(mainLabel: string, methods: seq<Emitter.Item>, data: seq<byte>)

  function GenerateAssembly(inp: Input, p: Program, env: Env): (a: Assembly)
    requires inp.toplevel < |p.blocks| && Valid(p.data) && Aligned(p.data)
    requires forall i, j :: 0 <= i < j < |p.codeTable| ==> Less(p.codeTable[i].0, p.codeTable[j].0)
    ensures a.mainLabel == env.callLabel(p.blocks[inp.toplevel].tag, "main")
    ensures |a.data| == p.data.size && |a.data| % 8 == 0
    ensures forall s :: Emitter.DispatcherCount(a.methods, s) == if s in p.usage.sent then 1 else 0
    ensures Emitter.Texts(a.methods) == Emitter.AllCode(p.codeTable)
  {
    Emitter.SortedKeysDistinct(p.codeTable);
    forall s ensures Emitter.DispatcherCount(Emitter.MethodSection(p.codeTable, p.usage.sent), s)
                     == if s in p.usage.sent then 1 else 0 {
      Emitter.ExactlyOneDispatcher(p.codeTable, p.usage.sent, s);
    }
    Emitter.EveryCodeEmitted(p.codeTable, p.usage.sent);
    AlignedSize(p.data);
    Assembly(env.callLabel(p.blocks[inp.toplevel].tag, "main"),
             Emitter.MethodSection(p.codeTable, p.usage.sent),
             Contents(p.data))
  }

  /** The data section of the generated program is exactly the encodings of
      the traceback strings, each once, in first-use order; the memo holds
      exactly those strings. */
  lemma DataSection(inp: Input, env: Env)
    requires WellFormed(inp)
    ensures CompileProgram(inp, env).Ok? ==>
              var p := CompileProgram(inp, env).value;
              && p.data.stringOffsets.Keys == Elems(TracebackStrings(inp.sends))
              && GenerateAssembly(inp, p, env).data == Flatten(Chunks(Fresh({}, TracebackStrings(inp.sends))))
  {
    if CompileProgram(inp, env).Ok? {
      var p := CompileProgram(inp, env).value;
      InternedFromEmpty(TracebackStrings(inp.sends), p.data);
      AssemblyData(inp, p, env);
    }
  }

  /** The data section is the table's bytes. */
  lemma AssemblyData(inp: Input, p: Program, env: Env)
    requires inp.toplevel < |p.blocks| && Valid(p.data) && Aligned(p.data)
    requires forall i, j :: 0 <= i < j < |p.codeTable| ==> Less(p.codeTable[i].0, p.codeTable[j].0)
    ensures GenerateAssembly(inp, p, env).data == Contents(p.data)
  {
  }

  /** End to end: every message sent to an unknown receiver, and `string`,
      gets exactly one dispatcher in the generated program, while a message
      that is only sent to known receivers and declared by no kept builtin
      gets none. */
  lemma SendDispatchers(inp: Input, env: Env, i: nat)
    requires WellFormed(inp) && i < |inp.sends|
    ensures CompileProgram(inp, env).Ok? ==>
              var p := CompileProgram(inp, env).value;
              var a := GenerateAssembly(inp, p, env);
              && Emitter.DispatcherCount(a.methods, "string") == 1
              && (inp.sends[i].receiver.None? ==> Emitter.DispatcherCount(a.methods, inp.sends[i].symbol) == 1)
              && (&& inp.sends[i].symbol != "string"
                  && (forall j :: 0 <= j < |inp.sends| && inp.sends[j].symbol == inp.sends[i].symbol
                                  ==> inp.sends[j].receiver.Some?)
                  && (forall k :: 0 <= k < |inp.builtins| && inp.sends[i].symbol in inp.builtins[k].sentMessages
                                  ==> !ShouldInclude(inp.builtins[k].symbol, inp.builtinTag, p.usage.sent, p.usage.called))
                  ==> Emitter.DispatcherCount(a.methods, inp.sends[i].symbol) == 0)
  {
    if CompileProgram(inp, env).Ok? {
      var p := CompileProgram(inp, env).value;
      var a := GenerateAssembly(inp, p, env);
      var s := inp.sends[i].symbol;
      CompiledParts(inp, env);
      SentSymbols(p.blocks, inp.toplevel, inp.sends, inp.builtins, inp.builtinTag, i);
      assert Emitter.DispatcherCount(a.methods, "string") == 1;
      assert Emitter.DispatcherCount(a.methods, s) == if s in p.usage.sent then 1 else 0;
    }
  }

  /** End to end: a builtin kept under the sets the builtin pass starts
      from gets a dispatcher for every message it declares. */
  lemma BuiltinMessagesDispatched(inp: Input, env: Env, k: nat, m: string)
    requires WellFormed(inp) && k < |inp.builtins|
    ensures CompileProgram(inp, env).Ok? ==>
              var p := CompileProgram(inp, env).value;
              var a := GenerateAssembly(inp, p, env);
              && ShouldInclude(inp.builtins[k].symbol, inp.builtinTag, InitialSent(inp.sends), p.usage.called)
              && m in inp.builtins[k].sentMessages
              ==> Emitter.DispatcherCount(a.methods, m) == 1
  {
    if CompileProgram(inp, env).Ok? {
      var p := CompileProgram(inp, env).value;
      var a := GenerateAssembly(inp, p, env);
      CompiledParts(inp, env);
      assert Emitter.DispatcherCount(a.methods, m) == if m in p.usage.sent then 1 else 0;
    }
  }

  /** Which messages `find_used_methods` counts as sent: `string`, every
      message sent to an unknown receiver, every message a builtin kept
      under the initial sets declares, and no message sent only to known
      receivers that no builtin kept under the final sets declares. */
  lemma SentSymbols(blocks: seq<Block>, toplevel: nat, sends: seq<Send>,
                    builtins: seq<BuiltinMethod>, builtinTag: int, i: nat)
    requires toplevel < |blocks| && ReceiversValid(sends, |blocks|) && i < |sends|
    ensures var u := FindUsedMethods(blocks, toplevel, sends, builtins, builtinTag);
            && "string" in u.sent
            && (sends[i].receiver.None? ==> sends[i].symbol in u.sent)
            && (forall k :: 0 <= k < |builtins| && sends[i].symbol in builtins[k].sentMessages
                            && ShouldInclude(builtins[k].symbol, builtinTag, InitialSent(sends), u.called)
                            ==> sends[i].symbol in u.sent)
            && (&& sends[i].symbol != "string"
                && (forall j :: 0 <= j < |sends| && sends[j].symbol == sends[i].symbol ==> sends[j].receiver.Some?)
                && (forall k :: 0 <= k < |builtins| && sends[i].symbol in builtins[k].sentMessages
                                ==> !ShouldInclude(builtins[k].symbol, builtinTag, u.sent, u.called))
                ==> sends[i].symbol !in u.sent)
  {
    var s := sends[i].symbol;
    if s != "string" && forall j :: 0 <= j < |sends| && sends[j].symbol == s ==> sends[j].receiver.Some? {
      assert s !in InitialSent(sends);
    }
  }
}

=== FILE: constants.dfy ===
/** The fixed-width tagged-value layout: a 64-bit word holding a 20-bit tag
    field above a 44-bit data field, and the ranges derived from those widths.
    Each derived constant is written as its value; the lemma `Derived` proves
    every one equal to the power-of-two expression the source computes it
    from, and the other lemmas give the fit and disjointness facts that the
    tag allocator and the runtime rely on. */
module Constants {

  /** 2^n, the meaning of Python's `1 << n` and `2**n` for n >= 0. */
  function Pow2(n: nat): (r: nat)
    ensures r >= 1
  {
    if n == 0 then 1 else 2 * Pow2(n - 1)
  }

  /** Bit k of a non-negative integer. */
  function Bit(x: nat, k: nat): (b: nat)
    ensures b < 2
  {
    (x / Pow2(k)) % 2
  }

  const NUM_BITS: nat := 64
  const NUM_TAG_BITS: nat := 20
  const NUM_DATA_BITS: nat := NUM_BITS - NUM_TAG_BITS
  const NUM_EXPONENT_BITS: nat := 8
  const NUM_SIGNIFICAND_BITS: nat := NUM_DATA_BITS - NUM_EXPONENT_BITS
  const ERROR_BIT: nat := 0x8_0000

  const HEAP_ALIGNMENT_SHIFT: nat := 4
  const HEAP_ALIGNMENT: nat := 16
  const HEAP_SIZE_BITS: nat := 10
  const MAX_HEAP_OBJECT_SIZE: int := 1023

  const MAX_TAG: int := 0x7_FFFE
  const MIN_CONSTANT_TAG: int := 0x10_0000
  const MAX_CONSTANT_TAG: int := 0xFFEF_FFFF

  const MIN_SMALL_INTEGER: int := -0x800_0000_0000
  const MAX_SMALL_INTEGER: int := 0x7FF_FFFF_FFFF
  const MIN_EXPONENT: int := -128
  const MAX_EXPONENT: int := 127
  const MIN_SIGNIFICAND: int := -0x8_0000_0000
  const MAX_SIGNIFICAND: int := 0x7_FFFF_FFFF

  const MASK_TAG: int := 0xF_FFFF
  const MASK_DATA: int := 0xFFF_FFFF_FFFF
  const MASK_EXPONENT: int := 0xFF
  const MASK_SIGNIFICAND: int := 0xF_FFFF_FFFF

  /** The largest value of a C `uint32_t`. */
  const UINT32_MAX: int := 0xFFFF_FFFF

  lemma {:induction false} Pow2Add(a: nat, b: nat)
    ensures Pow2(a + b) == Pow2(a) * Pow2(b)
  {
    if a > 0 {
      Pow2Add(a - 1, b);
      assert Pow2(a + b) == 2 * Pow2(a - 1 + b);
    }
  }

  /** The powers of two the layout is built from, evaluated. */
  lemma Pow2Values()
    ensures Pow2(4) == 16 && Pow2(7) == 128 && Pow2(8) == 256
    ensures Pow2(10) == 1024 && Pow2(19) == 0x8_0000 && Pow2(20) == 0x10_0000
    ensures Pow2(32) == 0x1_0000_0000 && Pow2(35) == 0x8_0000_0000
    ensures Pow2(36) == 0x10_0000_0000 && Pow2(43) == 0x800_0000_0000
    ensures Pow2(44) == 0x1000_0000_0000 && Pow2(64) == 0x1_0000_0000_0000_0000
  {
    assert Pow2(4) == 16;
    Pow2Add(4, 4);
    Pow2Add(4, 3);
    Pow2Add(8, 2);
    Pow2Add(10, 10);
    Pow2Add(10, 9);
    Pow2Add(20, 12);
    Pow2Add(32, 4);
    Pow2Add(32, 3);
    Pow2Add(32, 12);
    Pow2Add(32, 11);
    Pow2Add(32, 32);
  }

  /** The tag field and the data field together fill the word, and the data
      field splits into an 8-bit exponent and a 36-bit significand. */
  lemma WordLayout()
    ensures NUM_DATA_BITS == 44 && NUM_SIGNIFICAND_BITS == 36
    ensures NUM_TAG_BITS + NUM_DATA_BITS == NUM_BITS
    ensures NUM_EXPONENT_BITS + NUM_SIGNIFICAND_BITS == NUM_DATA_BITS
  {
  }

  /** Every derived constant has the value of the source's expression for
      it, and so the constant tags start just above the tag mask, strictly
      above every regular tag, with the highest constant tag still fitting
      in 32 bits. */
  lemma Derived()
    ensures ERROR_BIT == Pow2(NUM_TAG_BITS - 1)
    ensures HEAP_ALIGNMENT == Pow2(HEAP_ALIGNMENT_SHIFT)
    ensures MAX_HEAP_OBJECT_SIZE == Pow2(HEAP_SIZE_BITS) - 1
    ensures MAX_TAG == Pow2(NUM_TAG_BITS - 1) - 2
    ensures MIN_CONSTANT_TAG == Pow2(NUM_TAG_BITS)
    ensures MAX_CONSTANT_TAG == Pow2(32) - MIN_CONSTANT_TAG - 1
    ensures MIN_SMALL_INTEGER == -(Pow2(NUM_DATA_BITS - 1) as int)
    ensures MAX_SMALL_INTEGER == Pow2(NUM_DATA_BITS - 1) - 1
    ensures MIN_EXPONENT == -(Pow2(NUM_EXPONENT_BITS - 1) as int)
    ensures MAX_EXPONENT == Pow2(NUM_EXPONENT_BITS - 1) - 1
    ensures MIN_SIGNIFICAND == -(Pow2(NUM_SIGNIFICAND_BITS - 1) as int)
    ensures MAX_SIGNIFICAND == Pow2(NUM_SIGNIFICAND_BITS - 1) - 1
    ensures MASK_TAG == Pow2(NUM_TAG_BITS) - 1
    ensures MASK_DATA == Pow2(NUM_DATA_BITS) - 1
    ensures MASK_EXPONENT == Pow2(NUM_EXPONENT_BITS) - 1
    ensures MASK_SIGNIFICAND == Pow2(NUM_SIGNIFICAND_BITS) - 1
    ensures UINT32_MAX == Pow2(32) - 1
    ensures MIN_CONSTANT_TAG == MASK_TAG + 1 && MAX_TAG < MIN_CONSTANT_TAG
    ensures MIN_CONSTANT_TAG + MAX_CONSTANT_TAG == UINT32_MAX
  {
    Pow2Values();
  }

  /** The error bit is the top bit of the tag field, and every regular tag
      lies below it, so a regular tag never has the error bit set. */
  lemma ErrorBitLayout()
    ensures ERROR_BIT <= MASK_TAG && Bit(MASK_TAG, NUM_TAG_BITS - 1) == 1
    ensures Bit(ERROR_BIT, NUM_TAG_BITS - 1) == 1
    ensures 0 <= MAX_TAG < ERROR_BIT
    ensures forall t: nat {:trigger Bit(t, NUM_TAG_BITS - 1)} ::
              t <= MAX_TAG ==> Bit(t, NUM_TAG_BITS - 1) == 0
  {
    Pow2Values();
  }

  /** The low `w` bits of `x` in two's complement (what masking with
      2^w - 1 keeps, negative numbers included). */
  function LowBits(x: int, w: nat): (u: int)
    ensures 0 <= u < Pow2(w)
  {
    x % Pow2(w)
  }

  /** Reads a `w`-bit field as a two's-complement signed number. */
  function SignExtend(u: int, w: nat): (x: int)
    requires w >= 1
    requires 0 <= u < Pow2(w)
    ensures -(Pow2(w - 1) as int) <= x <= Pow2(w - 1) - 1
    ensures x == u || x == u - Pow2(w)
  {
    if u >= Pow2(w - 1) then u - Pow2(w) else u
  }

  lemma MulSign(a: int, m: int)
    requires m > 0
    ensures a >= 1 ==> a * m >= m
    ensures a <= -1 ==> a * m <= -m
  {
    if a >= 1 { assert a * m == (a - 1) * m + m; }
    if a <= -1 { assert a * m == (a + 1) * m - m; }
  }

  lemma ModOfInRange(x: int, m: int, k: int)
    requires m > 0 && 0 <= x + k * m < m
    ensures x % m == x + k * m
  {
    var q := x / m;
    var r := x % m;
    assert x == q * m + r;
    assert (q + k) * m == x + k * m - r;
    MulSign(q + k, m);
  }

  /** [-2^(w-1), 2^(w-1)-1] is the two's-complement range of width w: exactly
      the integers that survive being stored in a w-bit field and read back
      signed. */
  lemma {:induction false} SignedRoundTrip(x: int, w: nat)
    requires w >= 1
    ensures -(Pow2(w - 1) as int) <= x <= Pow2(w - 1) - 1
        <==> SignExtend(LowBits(x, w), w) == x
  {
    var h := Pow2(w - 1);
    assert Pow2(w) == 2 * h;
    if -h <= x < 0 {
      ModOfInRange(x, 2 * h, 1);
    } else if 0 <= x < h {
      ModOfInRange(x, 2 * h, 0);
    }
  }

  /** 2^w - 1 has all of its low w bits set and nothing above them. */
  lemma {:induction false} AllOnes(w: nat, k: nat)
    requires k < w
    ensures Bit(Pow2(w) - 1, k) == 1
  {
    var m := w - k;
    Pow2Add(k, m);
    var q := Pow2(m) - 1;
    var d := Pow2(k);
    assert Pow2(w) - 1 == q * d + (d - 1);
    DivOfInRange(Pow2(w) - 1, d, q);
    assert Pow2(m) == 2 * Pow2(m - 1);
    ModOfInRange(q, 2, -(Pow2(m - 1) - 1));
  }

  lemma DivOfInRange(x: int, d: int, q: int)
    requires d > 0 && q * d <= x < q * d + d
    ensures x / d == q
  {
    var q' := x / d;
    assert x == q' * d + x % d;
    assert (q' - q) * d == x - x % d - q * d;
    MulSign(q' - q, d);
  }

  /** Small integers are exactly the 44-bit two's-complement integers, and
      there are MASK_DATA + 1 of them. */
  lemma SmallIntegerRange(x: int)
    ensures MAX_SMALL_INTEGER - MIN_SMALL_INTEGER + 1 == MASK_DATA + 1 == Pow2(NUM_DATA_BITS)
    ensures MIN_SMALL_INTEGER <= x <= MAX_SMALL_INTEGER
        <==> SignExtend(LowBits(x, NUM_DATA_BITS), NUM_DATA_BITS) == x
  {
    Pow2Values();
    SignedRoundTrip(x, NUM_DATA_BITS);
  }

  /** The exponent and significand ranges are the two's-complement ranges
      of their widths, and their masks are all-ones of those widths. */
  lemma FloatFieldRanges(x: int, k: nat)
    ensures MIN_EXPONENT <= x <= MAX_EXPONENT
        <==> SignExtend(LowBits(x, NUM_EXPONENT_BITS), NUM_EXPONENT_BITS) == x
    ensures MIN_SIGNIFICAND <= x <= MAX_SIGNIFICAND
        <==> SignExtend(LowBits(x, NUM_SIGNIFICAND_BITS), NUM_SIGNIFICAND_BITS) == x
    ensures k < NUM_EXPONENT_BITS ==> Bit(MASK_EXPONENT, k) == 1
    ensures k < NUM_SIGNIFICAND_BITS ==> Bit(MASK_SIGNIFICAND, k) == 1
    ensures k < NUM_DATA_BITS ==> Bit(MASK_DATA, k) == 1
    ensures k < NUM_TAG_BITS ==> Bit(MASK_TAG, k) == 1
  {
    Pow2Values();
    SignedRoundTrip(x, NUM_EXPONENT_BITS);
    SignedRoundTrip(x, NUM_SIGNIFICAND_BITS);
    if k < NUM_EXPONENT_BITS { AllOnes(NUM_EXPONENT_BITS, k); }
    if k < NUM_SIGNIFICAND_BITS { AllOnes(NUM_SIGNIFICAND_BITS, k); }
    if k < NUM_DATA_BITS { AllOnes(NUM_DATA_BITS, k); }
    if k < NUM_TAG_BITS { AllOnes(NUM_TAG_BITS, k); }
  }

  /** A tagged value: the tag in the high 20 bits above the 44-bit data field. */
  function TaggedWord(tag: int, data: int): (w: int)
    requires 0 <= tag <= MASK_TAG && 0 <= data <= MASK_DATA
    ensures 0 <= w < Pow2(NUM_BITS)
    ensures w / Pow2(NUM_DATA_BITS) == tag && w % Pow2(NUM_DATA_BITS) == data
  {
    Pow2Values();
    DivOfInRange(tag * Pow2(NUM_DATA_BITS) + data, Pow2(NUM_DATA_BITS), tag);
    tag * Pow2(NUM_DATA_BITS) + data
  }
}

=== FILE: data_table.dfy ===
/** The data table: an append-only byte arena that hands out stable offsets,
    and the encoding of string literals stored in it (a 32-bit length
    header, the UTF-8 bytes, then nul padding up to a multiple of 8). */
module DataTable {
  import opened Wrappers
  import opened Errors
  import opened Constants
  import Utf8
  type byte = Utf8.byte

  /** `struct.pack('I', n)`: four bytes, least significant first (the
      native order of the x86-64 targets). */
  function Le32(n: nat): (bs: seq<byte>)
    requires n <= UINT32_MAX
    ensures |bs| == 4
  {
    [n % 256, (n / 256) % 256, (n / 256 / 256) % 256, n / 256 / 256 / 256]
  }

  /** Reads an unsigned 32-bit little-endian header. */
  function ReadLe32(bs: seq<byte>): (n: nat)
    requires |bs| == 4
    ensures n <= UINT32_MAX
  {
    ((bs[3] as int * 256 + bs[2]) * 256 + bs[1]) * 256 + bs[0]
  }

  lemma ReadLe32Le32(n: nat)
    requires n <= UINT32_MAX
    ensures ReadLe32(Le32(n)) == n
  {
    var a, b, c := n / 256, n / 256 / 256, n / 256 / 256 / 256;
    assert n == a * 256 + n % 256;
    assert a == b * 256 + a % 256;
    assert b == c * 256 + b % 256;
  }

  /** Nul bytes. */
  function Zeros(n: nat): (z: seq<byte>)
    ensures |z| == n && forall i :: 0 <= i < n ==> z[i] == 0
  {
    seq(n, _ => 0)
  }

  /** Nul padding after `h` up to the next multiple of 8: `8 - (len & 7)`
      bytes, so at least one and a full 8 when `h` is already aligned. */
  function Pad(h: seq<byte>): (r: seq<byte>)
    ensures |r| % 8 == 0 && |h| + 1 <= |r| <= |h| + 8
    ensures r[..|h|] == h
    ensures forall i :: |h| <= i < |r| ==> r[i] == 0
  {
    h + Zeros(8 - |h| % 8)
  }

  /** `encode_string_data`: the header holding the UTF-8 length, the UTF-8
      bytes, then the padding. `struct.pack` refuses a length that does not fit 32 bits. */
  function EncodeStringData(s: string): (r: Result<seq<byte>, CompileError>)
    ensures r.Ok? <==> |Utf8.Encode(s)| <= UINT32_MAX
    ensures r.Err? ==> r.error == StringTooLong
    ensures r.Ok? ==>
              var u := Utf8.Encode(s);
              && |r.value| % 8 == 0
              && 4 + |u| + 1 <= |r.value| <= 4 + |u| + 8
              && r.value[..4] == Le32(|u|)
              && r.value[4..4 + |u|] == u
              && forall i :: 4 + |u| <= i < |r.value| ==> r.value[i] == 0
  {
    var u := Utf8.Encode(s);
    if |u| > UINT32_MAX then
      Err(StringTooLong)
    else
      PaddedLayout(Le32(|u|), u);
      Ok(Pad(Le32(|u|) + u))
  }

  /** Padding a header followed by a payload keeps both in place. */
  lemma PaddedLayout(header: seq<byte>, u: seq<byte>)
    requires |header| == 4
    ensures var r := Pad(header + u);
            && |r| % 8 == 0
            && 4 + |u| + 1 <= |r| <= 4 + |u| + 8
            && r[..4] == header
            && r[4..4 + |u|] == u
            && forall i :: 4 + |u| <= i < |r| ==> r[i] == 0
  {
    var h := header + u;
    var r := Pad(h);
    assert r[..4] == h[..4];
    assert r[4..4 + |u|] == h[4..];
  }

  /** Reads a length header and returns the bytes it announces. */
  function DecodeStringData(blob: seq<byte>): (r: Option<seq<byte>>)
    ensures r.Some? ==> |blob| >= 4 && |r.value| == ReadLe32(blob[..4])
  {
    if |blob| < 4 then None
    else
      var n := ReadLe32(blob[..4]);
      if 4 + n <= |blob| then Some(blob[4..4 + n]) else None
  }

  /** Header plus payload give back the UTF-8 bytes, and so the string,
      whatever follows the encoded blob. */
  lemma DecodeEncodeStringData(s: string, rest: seq<byte>)
    requires EncodeStringData(s).Ok?
    ensures DecodeStringData(EncodeStringData(s).value + rest) == Some(Utf8.Encode(s))
    ensures Utf8.Decode(DecodeStringData(EncodeStringData(s).value + rest).value) == Some(s)
  {
    var e := EncodeStringData(s).value;
    var u := Utf8.Encode(s);
    assert (e + rest)[..4] == e[..4];
    ReadLe32Le32(|u|);
    assert (e + rest)[4..4 + |u|] == e[4..4 + |u|];
    Utf8.DecodeEncode(s);
  }

  /** The arena: `size` bytes held as the appended chunks, and the memo of
      string literals already stored. */
  datatype Table = Table(size: nat, data: seq<seq<byte>>, stringOffsets: map<string, nat>)

  /** The chunks laid end to end. */
  function Flatten(chunks: seq<seq<byte>>): seq<byte> {
    if chunks == [] then [] else chunks[0] + Flatten(chunks[1..])
  }

  lemma {:induction false} FlattenSnoc(chunks: seq<seq<byte>>, d: seq<byte>)
    ensures Flatten(chunks + [d]) == Flatten(chunks) + d
  {
    if chunks != [] {
      assert (chunks + [d])[1..] == chunks[1..] + [d];
      FlattenSnoc(chunks[1..], d);
    } else {
      assert Flatten([d]) == d + Flatten([]);
    }
  }

  /** Every chunk a multiple of 8 bytes long makes the whole a multiple of 8. */
  lemma {:induction false} FlattenAligned(chunks: seq<seq<byte>>)
    requires forall i :: 0 <= i < |chunks| ==> |chunks[i]| % 8 == 0
    ensures |Flatten(chunks)| % 8 == 0
  {
    if chunks != [] {
      FlattenAligned(chunks[1..]);
    }
  }

  /** The bytes the table will emit. */
  function Contents(t: Table): seq<byte> {
    Flatten(t.data)
  }

  /** The encoded form of `s` lies in the table at `offset`. */
  predicate Stores(t: Table, s: string, offset: nat) {
    var e := EncodeStringData(s);
    && e.Ok?
    && offset + |e.value| <= |Contents(t)|
    && Contents(t)[offset..offset + |e.value|] == e.value
  }

  /** `size` is the total length of the chunks, and every memoised offset
      really holds its string. */
  predicate Valid(t: Table) {
    && t.size == |Contents(t)|
    && forall s :: s in t.stringOffsets ==> Stores(t, s, t.stringOffsets[s])
  }

  /** Every chunk, and so every string offset, is 8-byte aligned. */
  predicate Aligned(t: Table) {
    && (forall i :: 0 <= i < |t.data| ==> |t.data[i]| % 8 == 0)
    && (forall s :: s in t.stringOffsets ==> t.stringOffsets[s] % 8 == 0)
  }

  /** `t2` was reached from `t1` by appending: old chunks and old offsets
      are untouched. */
  predicate Extends(t1: Table, t2: Table) {
    && |t1.data| <= |t2.data|
    && t2.data[..|t1.data|] == t1.data
    && forall s :: s in t1.stringOffsets ==>
         s in t2.stringOffsets && t2.stringOffsets[s] == t1.stringOffsets[s]
  }

  /** A fresh table. */
  function Empty(): (t: Table)
    ensures Valid(t) && Aligned(t) && t.size == 0
  {
    Table(0, [], map[])
  }

  /** `append_data`: the offset handed out is the size before the append;
      earlier bytes keep their place. */
  function AppendData(t: Table, data: seq<byte>): (r: (Table, nat))
    ensures r.1 == t.size && r.0.size == t.size + |data|
    ensures Extends(t, r.0) && r.0.stringOffsets == t.stringOffsets
    ensures |r.0.data| == |t.data| + 1 && r.0.data[|t.data|] == data
    ensures Valid(t) ==> Valid(r.0) && Contents(r.0) == Contents(t) + data
  {
    var t' := Table(t.size + |data|, t.data + [data], t.stringOffsets);
    AppendKeepsValid(t, data, t');
    (t', t.size)
  }

  lemma AppendKeepsValid(t: Table, data: seq<byte>, t': Table)
    requires t' == Table(t.size + |data|, t.data + [data], t.stringOffsets)
    ensures Contents(t') == Contents(t) + data
    ensures Extends(t, t')
    ensures Valid(t) ==> Valid(t')
  {
    FlattenSnoc(t.data, data);
    assert t'.data[..|t.data|] == t.data;
    if Valid(t) {
      forall s | s in t'.stringOffsets
        ensures Stores(t', s, t'.stringOffsets[s])
      {
        var o, e := t.stringOffsets[s], EncodeStringData(s).value;
        assert Contents(t')[o..o + |e|] == Contents(t)[o..o + |e|];
      }
    }
  }

  /** `allocate_string_offset`: a string already stored returns its old
      offset and leaves the table as it was; a new string is encoded,
      appended at the current size, and memoised. */
  function AllocateStringOffset(t: Table, s: string): (r: Result<(Table, nat), CompileError>)
    ensures s in t.stringOffsets ==> r == Ok((t, t.stringOffsets[s]))
    ensures s !in t.stringOffsets ==> (r.Ok? <==> EncodeStringData(s).Ok?)
    ensures r.Err? ==> r.error == StringTooLong
    ensures s !in t.stringOffsets && r.Ok? ==>
              && r.value.1 == t.size
              && r.value.0.size == t.size + |EncodeStringData(s).value|
              && r.value.0.stringOffsets == t.stringOffsets[s := t.size]
              && r.value.0.data == t.data + [EncodeStringData(s).value]
    ensures r.Ok? ==> Extends(t, r.value.0) && r.value.0.stringOffsets[s] == r.value.1
    ensures r.Ok? && Valid(t) ==> Valid(r.value.0) && Stores(r.value.0, s, r.value.1)
    ensures r.Ok? && Valid(t) && Aligned(t) ==> Aligned(r.value.0)
  {
    if s in t.stringOffsets then
      Ok((t, t.stringOffsets[s]))
    else
      match EncodeStringData(s)
      case Err(e) => Err(e)
      case Ok(data) =>
        var (t1, offset) := AppendData(t, data);
        var t2 := t1.(stringOffsets := t1.stringOffsets[s := offset]);
        assert Contents(t2) == Contents(t1);
        NewStringStored(t, s, data, t2);
        Ok((t2, offset))
  }

  lemma NewStringStored(t: Table, s: string, data: seq<byte>, t2: Table)
    requires EncodeStringData(s) == Ok(data)
    requires t2 == Table(t.size + |data|, t.data + [data], t.stringOffsets[s := t.size])
    ensures Valid(t) ==> Stores(t2, s, t.size)
    ensures Valid(t) && Aligned(t) ==> t.size % 8 == 0
  {
    var t1 := Table(t.size + |data|, t.data + [data], t.stringOffsets);
    AppendKeepsValid(t, data, t1);
    assert Contents(t2) == Contents(t1);
    if Valid(t) {
      assert Contents(t2)[t.size..t.size + |data|] == data;
      if Aligned(t) { FlattenAligned(t.data); }
    }
  }

  /** The chunks laid end to end, split anywhere. */
  lemma {:induction false} FlattenAppend(a: seq<seq<byte>>, b: seq<seq<byte>>)
    ensures Flatten(a + b) == Flatten(a) + Flatten(b)
  {
    if a != [] {
      assert (a + b)[1..] == a[1..] + b;
      FlattenAppend(a[1..], b);
    } else {
      assert a + b == b;
    }
  }

  /** The set of strings a list holds. */
  function Elems(ss: seq<string>): set<string> {
    set s | s in ss
  }

  /** The strings of `ss` not in `known`, each at its first occurrence and in
      list order: those that interning `ss` one by one would store. */
  function Fresh(known: set<string>, ss: seq<string>): seq<string>
    decreases |ss|
  {
    if ss == [] then []
    else if ss[0] in known then Fresh(known, ss[1..])
    else [ss[0]] + Fresh(known + {ss[0]}, ss[1..])
  }

  /** The fresh strings are exactly those of the list outside `known`, and
      none comes twice. */
  lemma {:induction false} FreshMembers(known: set<string>, ss: seq<string>)
    ensures var r := Fresh(known, ss);
            && (forall s :: s in r <==> s in ss && s !in known)
            && (forall i, j :: 0 <= i < j < |r| ==> r[i] != r[j])
    decreases |ss|
  {
    if ss != [] {
      assert forall s :: s in ss <==> s == ss[0] || s in ss[1..];
      if ss[0] in known {
        FreshMembers(known, ss[1..]);
      } else {
        var rest := Fresh(known + {ss[0]}, ss[1..]);
        FreshMembers(known + {ss[0]}, ss[1..]);
        assert forall i :: 0 < i < |[ss[0]] + rest| ==> ([ss[0]] + rest)[i] == rest[i - 1];
      }
    }
  }

  /** Interning `a` and then `b` stores the fresh strings of `a`, then those
      of `b` that neither `known` nor `a` holds. */
  lemma {:induction false} FreshAppend(known: set<string>, a: seq<string>, b: seq<string>)
    ensures Fresh(known, a + b) == Fresh(known, a) + Fresh(known + Elems(a), b)
    decreases |a|
  {
    if a == [] {
      assert a + b == b && known + Elems(a) == known;
    } else {
      assert (a + b)[0] == a[0] && (a + b)[1..] == a[1..] + b;
      ElemsCons(a);
      var known' := if a[0] in known then known else known + {a[0]};
      FreshAppend(known', a[1..], b);
      assert known' + Elems(a[1..]) == known + Elems(a);
      if a[0] !in known {
        var x, y := Fresh(known', a[1..]), Fresh(known + Elems(a), b);
        assert [a[0]] + (x + y) == ([a[0]] + x) + y;
      }
    }
  }

  lemma ElemsCons(a: seq<string>)
    requires a != []
    ensures Elems(a) == {a[0]} + Elems(a[1..])
  {
    assert forall s :: s in a <==> s == a[0] || s in a[1..];
  }

  /** The encoded form of a string, as the table stores it (empty for a
      string too long to encode, which is never stored). */
  function Encoding(s: string): seq<byte> {
    match EncodeStringData(s)
    case Ok(e) => e
    case Err(_) => []
  }

  /** The chunks that storing `ss` in order appends. */
  function Chunks(ss: seq<string>): (r: seq<seq<byte>>)
    ensures |r| == |ss|
    ensures forall i :: 0 <= i < |ss| ==> r[i] == Encoding(ss[i])
  {
    if ss == [] then [] else [Encoding(ss[0])] + Chunks(ss[1..])
  }

  lemma {:induction false} ChunksAppend(a: seq<string>, b: seq<string>)
    ensures Chunks(a + b) == Chunks(a) + Chunks(b)
  {
    if a == [] {
      assert a + b == b;
    } else {
      assert (a + b)[0] == a[0] && (a + b)[1..] == a[1..] + b;
      ChunksAppend(a[1..], b);
    }
  }

  /** `t'` is `t` after interning `ss` one by one: the memo gains exactly
      the strings of `ss`, and the arena gains exactly the encodings of
      those not already memoised, once each, in first-use order. */
  predicate Interned(t: Table, ss: seq<string>, t': Table) {
    var f := Fresh(t.stringOffsets.Keys, ss);
    && t'.stringOffsets.Keys == t.stringOffsets.Keys + Elems(ss)
    && t'.data == t.data + Chunks(f)
    && t'.size == t.size + |Flatten(Chunks(f))|
  }

  /** Interning in two steps is interning the concatenation. */
  lemma InternedTrans(t: Table, a: seq<string>, t1: Table, b: seq<string>, t2: Table)
    requires Interned(t, a, t1) && Interned(t1, b, t2)
    ensures Interned(t, a + b, t2)
  {
    var k := t.stringOffsets.Keys;
    var fa, fb := Fresh(k, a), Fresh(k + Elems(a), b);
    ElemsAppend(a, b);
    FreshAppend(k, a, b);
    ChunksGrow(t.data, Chunks(fa), t1.data, Chunks(fb), t2.data);
    ChunksAppend(fa, fb);
    FlattenAppend(Chunks(fa), Chunks(fb));
  }

  lemma ElemsAppend(a: seq<string>, b: seq<string>)
    ensures Elems(a + b) == Elems(a) + Elems(b)
  {
  }

  lemma ChunksGrow(d: seq<seq<byte>>, x: seq<seq<byte>>, d1: seq<seq<byte>>, y: seq<seq<byte>>, d2: seq<seq<byte>>)
    requires d1 == d + x && d2 == d1 + y
    ensures d2 == d + (x + y)
  {
  }

  /** Interning into a fresh table leaves exactly the fresh strings'
      encodings as its bytes. */
  lemma InternedFromEmpty(ss: seq<string>, t: Table)
    requires Interned(Empty(), ss, t)
    ensures t.stringOffsets.Keys == Elems(ss)
    ensures Contents(t) == Flatten(Chunks(Fresh({}, ss)))
  {
    assert Empty().stringOffsets.Keys == {} && Empty().data == [];
    assert t.data == Chunks(Fresh({}, ss));
  }

  /** One allocation interns its one string. */
  lemma AllocateInterns(t: Table, s: string)
    requires AllocateStringOffset(t, s).Ok?
    ensures Interned(t, [s], AllocateStringOffset(t, s).value.0)
  {
    var t' := AllocateStringOffset(t, s).value.0;
    assert Elems([s]) == {s};
    assert [s][1..] == [];
    if s in t.stringOffsets {
      assert Fresh(t.stringOffsets.Keys, [s]) == [];
    } else {
      assert Fresh(t.stringOffsets.Keys, [s]) == [s];
      assert Chunks([s]) == [EncodeStringData(s).value];
      assert Flatten([EncodeStringData(s).value]) == EncodeStringData(s).value + Flatten([]);
    }
  }

  /** Two allocations in a row intern their two strings, in order. */
  lemma AllocatePairInterns(t: Table, h: string, l: string)
    requires AllocateStringOffset(t, h).Ok?
    requires AllocateStringOffset(AllocateStringOffset(t, h).value.0, l).Ok?
    ensures Interned(t, [h, l], AllocateStringOffset(AllocateStringOffset(t, h).value.0, l).value.0)
  {
    var t1 := AllocateStringOffset(t, h).value.0;
    AllocateInterns(t, h);
    AllocateInterns(t1, l);
    InternedTrans(t, [h], t1, [l], AllocateStringOffset(t1, l).value.0);
    assert [h] + [l] == [h, l];
  }

  /** Allocating the same string again yields the same offset and changes
      nothing. */
  lemma AllocateTwice(t: Table, s: string)
    requires AllocateStringOffset(t, s).Ok?
    ensures var (t1, o1) := AllocateStringOffset(t, s).value;
            AllocateStringOffset(t1, s) == Ok((t1, o1))
  {
  }

  /** In a valid table, reading the blob at a string's offset decodes back
      to that string. */
  lemma ReadBack(t: Table, s: string)
    requires Valid(t) && s in t.stringOffsets
    ensures var o := t.stringOffsets[s];
            && o <= |Contents(t)|
            && DecodeStringData(Contents(t)[o..]) == Some(Utf8.Encode(s))
            && Utf8.Decode(DecodeStringData(Contents(t)[o..]).value) == Some(s)
  {
    var o := t.stringOffsets[s];
    var e := EncodeStringData(s).value;
    var c := Contents(t);
    assert c[o..] == e + c[o + |e|..];
    DecodeEncodeStringData(s, c[o + |e|..]);
  }

  /** An aligned table's size, and so the next offset it hands out, is a
      multiple of 8. */
  lemma AlignedSize(t: Table)
    requires Valid(t) && Aligned(t)
    ensures t.size % 8 == 0
  {
    FlattenAligned(t.data);
  }

  /** The literal "hi" in a fresh table takes 4 + 2 + 2 = 8 bytes at offset 0. */
  lemma AllocateHi()
    ensures var r := AllocateStringOffset(Empty(), "hi");
            r.Ok? && r.value.1 == 0 && r.value.0.size == 8
  {
    var u := Utf8.Encode("hi");
    assert u == [0x68, 0x69] by {
      assert Utf8.EncodeChar('h') == [0x68] && Utf8.EncodeChar('i') == [0x69];
      assert "hi"[1..] == "i";
      assert "i"[1..] == "";
    }
    var e := EncodeStringData("hi").value;
    assert |e| == 8;
    assert "hi" !in Empty().stringOffsets;
  }
}

=== FILE: emitter.dfy ===
/** The method section of the generated program: for each code-table
    symbol in order, a dispatcher when the message is sent dynamically,
    then every implementation's code; afterwards an empty dispatcher for
    each dynamically sent message that has no implementation. */
module Emitter {
  import opened StringOrder
  import opened CodeTable

  /** One piece of the method section. A dispatcher is identified by its
      message and the tags it switches on; its text is generated outside
      the core. */
  datatype Item = Dispatcher(symbol: string, tags: seq<int>) | Code(text: string)

  /** A code table: symbols with their implementations. */
  type CodeRows = seq<(string, seq<Entry>)>

  /** The symbols a code table lists. */
  function Keys(table: CodeRows): (r: set<string>)
    ensures forall s :: s in r <==> exists i :: 0 <= i < |table| && table[i].0 == s
  {
    set i | 0 <= i < |table| :: table[i].0
  }

  /** No symbol is listed twice. */
  predicate KeysDistinct(table: CodeRows) {
    forall i, j :: 0 <= i < j < |table| ==> table[i].0 != table[j].0
  }

  /** A table whose symbols are strictly sorted lists each symbol once. */
  lemma SortedKeysDistinct(table: CodeRows)
    requires forall i, j :: 0 <= i < j < |table| ==> Less(table[i].0, table[j].0)
    ensures KeysDistinct(table)
  {
    forall i, j | 0 <= i < j < |table| ensures table[i].0 != table[j].0 {
      LessIrreflexive(table[i].0);
    }
  }

  /** `[tag for tag, code in methods]`. */
  function TagsOf(entries: seq<Entry>): (r: seq<int>)
    ensures |r| == |entries|
    ensures forall i :: 0 <= i < |r| ==> r[i] == entries[i].0
  {
    if entries == [] then [] else [entries[0].0] + TagsOf(entries[1..])
  }

  /** The code of every implementation, in order. */
  function Codes(entries: seq<Entry>): (r: seq<Item>)
    ensures |r| == |entries|
    ensures forall i :: 0 <= i < |r| ==> r[i] == Code(entries[i].1)
  {
    if entries == [] then [] else [Code(entries[0].1)] + Codes(entries[1..])
  }

  /** What one code-table row emits. */
  function EmitRow(symbol: string, entries: seq<Entry>, sent: set<string>): seq<Item> {
    (if symbol in sent then [Dispatcher(symbol, TagsOf(entries))] else []) + Codes(entries)
  }

  /** The loop over the code table: the items written and the set
      `dispatchers` of messages that received a dispatcher. */
  function EmitTable(table: CodeRows, sent: set<string>): (r: (seq<Item>, set<string>))
    ensures r.1 == Keys(table) * sent
  {
    if table == [] then ([], {})
    else
      var rest := EmitTable(table[1..], sent);
      assert Keys(table) == {table[0].0} + Keys(table[1..]) by {
        forall s | s in Keys(table) ensures s in {table[0].0} + Keys(table[1..]) {
          var i :| 0 <= i < |table| && table[i].0 == s;
          if i > 0 { assert table[1..][i - 1].0 == s; }
        }
      }
      (EmitRow(table[0].0, table[0].1, sent) + rest.0,
       (if table[0].0 in sent then {table[0].0} else {}) + rest.1)
  }

  /** Empty dispatchers for the given messages, in the given order. */
  function EmptyDispatchers(symbols: seq<string>): (r: seq<Item>)
    ensures |r| == |symbols|
    ensures forall i :: 0 <= i < |r| ==> r[i] == Dispatcher(symbols[i], [])
  {
    if symbols == [] then [] else [Dispatcher(symbols[0], [])] + EmptyDispatchers(symbols[1..])
  }

  /** The messages sent dynamically that no method implements; each draws
      the "no methods defined" warning. */
  function Unimplemented(table: CodeRows, sent: set<string>): (r: set<string>)
    ensures forall s :: s in r <==> s in sent && forall i :: 0 <= i < |table| ==> table[i].0 != s
  {
    sent - EmitTable(table, sent).1
  }

  /** The method section of `generate_assembly`. The fallback dispatchers
      are written in sorted order. */
  function MethodSection(table: CodeRows, sent: set<string>): seq<Item> {
    EmitTable(table, sent).0 + EmptyDispatchers(SortedSet(Unimplemented(table, sent)))
  }

  /** How many dispatchers for `s` the items hold. */
  function DispatcherCount(items: seq<Item>, s: string): nat {
    if items == [] then 0
    else (if items[0].Dispatcher? && items[0].symbol == s then 1 else 0)
         + DispatcherCount(items[1..], s)
  }

  lemma {:induction false} DispatcherCountAppend(a: seq<Item>, b: seq<Item>, s: string)
    ensures DispatcherCount(a + b, s) == DispatcherCount(a, s) + DispatcherCount(b, s)
  {
    if a == [] {
      assert a + b == b;
    } else {
      assert (a + b)[1..] == a[1..] + b;
      DispatcherCountAppend(a[1..], b, s);
    }
  }

  lemma {:induction false} CodesHaveNoDispatcher(entries: seq<Entry>, s: string)
    ensures DispatcherCount(Codes(entries), s) == 0
  {
    if entries != [] {
      assert Codes(entries)[1..] == Codes(entries[1..]);
      CodesHaveNoDispatcher(entries[1..], s);
    }
  }

  /** A row emits a dispatcher for `s` exactly when it is the row of `s`
      and `s` is sent dynamically. */
  lemma RowDispatcherCount(symbol: string, entries: seq<Entry>, sent: set<string>, s: string)
    ensures DispatcherCount(EmitRow(symbol, entries, sent), s) == if symbol == s && s in sent then 1 else 0
  {
    var head: seq<Item> := if symbol in sent then [Dispatcher(symbol, TagsOf(entries))] else [];
    DispatcherCountAppend(head, Codes(entries), s);
    CodesHaveNoDispatcher(entries, s);
    if symbol in sent {
      assert head[1..] == [];
    }
  }

  /** Over a table listing each symbol once, the loop emits one dispatcher
      for each listed symbol that is sent dynamically, and none for others. */
  lemma {:induction false} TableDispatcherCount(table: CodeRows, sent: set<string>, s: string)
    requires KeysDistinct(table)
    ensures DispatcherCount(EmitTable(table, sent).0, s) == if s in Keys(table) && s in sent then 1 else 0
  {
    if table != [] {
      var rest := EmitTable(table[1..], sent);
      DispatcherCountAppend(EmitRow(table[0].0, table[0].1, sent), rest.0, s);
      RowDispatcherCount(table[0].0, table[0].1, sent, s);
      TableDispatcherCount(table[1..], sent, s);
      if table[0].0 == s {
        forall i | 0 <= i < |table[1..]| ensures table[1..][i].0 != s {
          assert table[1..][i] == table[i + 1];
        }
      }
      assert s in Keys(table) <==> table[0].0 == s || s in Keys(table[1..]) by {
        if s in Keys(table) {
          var i :| 0 <= i < |table| && table[i].0 == s;
          if i > 0 { assert table[1..][i - 1].0 == s; }
        }
        if s in Keys(table[1..]) {
          var i :| 0 <= i < |table[1..]| && table[1..][i].0 == s;
          assert table[i + 1].0 == s;
        }
      }
    }
  }

  /** Empty dispatchers for distinct messages: one for each listed message. */
  lemma {:induction false} EmptyDispatcherCount(symbols: seq<string>, s: string)
    requires forall i, j :: 0 <= i < j < |symbols| ==> symbols[i] != symbols[j]
    ensures DispatcherCount(EmptyDispatchers(symbols), s) == if s in symbols then 1 else 0
  {
    if symbols != [] {
      assert EmptyDispatchers(symbols)[1..] == EmptyDispatchers(symbols[1..]);
      EmptyDispatcherCount(symbols[1..], s);
      assert s in symbols <==> symbols[0] == s || s in symbols[1..];
      if symbols[0] == s {
        assert forall i :: 0 <= i < |symbols[1..]| ==> symbols[1..][i] == symbols[i + 1];
      }
    }
  }

  /** Every message sent dynamically gets exactly one dispatcher, whether or
      not any method implements it, and no other message gets one. */
  lemma ExactlyOneDispatcher(table: CodeRows, sent: set<string>, s: string)
    requires KeysDistinct(table)
    ensures DispatcherCount(MethodSection(table, sent), s) == if s in sent then 1 else 0
  {
    var missing := SortedSet(Unimplemented(table, sent));
    DispatcherCountAppend(EmitTable(table, sent).0, EmptyDispatchers(missing), s);
    TableDispatcherCount(table, sent, s);
    forall i, j | 0 <= i < j < |missing| ensures missing[i] != missing[j] {
      LessIrreflexive(missing[i]);
    }
    EmptyDispatcherCount(missing, s);
  }

  /** The dispatcher a row emits switches on exactly the row's tags. */
  lemma {:induction false} DispatcherTags(table: CodeRows, sent: set<string>, k: nat, d: Item)
    requires KeysDistinct(table)
    requires k < |table| && d in EmitTable(table, sent).0 && d.Dispatcher? && d.symbol == table[k].0
    ensures d.tags == TagsOf(table[k].1)
  {
    var row := EmitRow(table[0].0, table[0].1, sent);
    var rest := EmitTable(table[1..], sent).0;
    assert d in row || d in rest;
    assert d in row ==> d !in Codes(table[0].1);
    if k == 0 {
      if d !in row {
        DispatcherSymbolsListed(table[1..], sent, d);
        assert false;
      }
    } else if d in row {
      assert false;
    } else {
      assert table[1..][k - 1] == table[k];
      DispatcherTags(table[1..], sent, k - 1, d);
    }
  }

  /** Every dispatcher the loop emits is for a listed, dynamically sent symbol. */
  lemma {:induction false} DispatcherSymbolsListed(table: CodeRows, sent: set<string>, d: Item)
    requires d in EmitTable(table, sent).0 && d.Dispatcher?
    ensures d.symbol in sent
    ensures exists i :: 0 <= i < |table| && table[i].0 == d.symbol
  {
    var row := EmitRow(table[0].0, table[0].1, sent);
    var rest := EmitTable(table[1..], sent).0;
    assert d in row || d in rest;
    if d in row {
      assert d !in Codes(table[0].1);
      assert d.symbol == table[0].0;
    } else {
      DispatcherSymbolsListed(table[1..], sent, d);
      var i :| 0 <= i < |table[1..]| && table[1..][i].0 == d.symbol;
      assert table[i + 1].0 == d.symbol;
    }
  }

  /** The concatenation of every row's code, in table order. */
  function AllCode(table: CodeRows): seq<string> {
    if table == [] then [] else CodeTexts(table[0].1) + AllCode(table[1..])
  }

  function CodeTexts(entries: seq<Entry>): (r: seq<string>)
    ensures |r| == |entries|
    ensures forall i :: 0 <= i < |r| ==> r[i] == entries[i].1
  {
    if entries == [] then [] else [entries[0].1] + CodeTexts(entries[1..])
  }

  /** The code items among `items`, in order. */
  function Texts(items: seq<Item>): seq<string> {
    if items == [] then []
    else (if items[0].Code? then [items[0].text] else []) + Texts(items[1..])
  }

  lemma {:induction false} TextsAppend(a: seq<Item>, b: seq<Item>)
    ensures Texts(a + b) == Texts(a) + Texts(b)
  {
    if a == [] {
      assert a + b == b;
    } else {
      assert (a + b)[1..] == a[1..] + b;
      TextsAppend(a[1..], b);
    }
  }

  lemma {:induction false} TextsOfEmptyDispatchers(symbols: seq<string>)
    ensures Texts(EmptyDispatchers(symbols)) == []
  {
    if symbols != [] {
      assert EmptyDispatchers(symbols)[1..] == EmptyDispatchers(symbols[1..]);
      TextsOfEmptyDispatchers(symbols[1..]);
    }
  }

  lemma {:induction false} TextsOfCodes(entries: seq<Entry>)
    ensures Texts(Codes(entries)) == CodeTexts(entries)
  {
    if entries != [] {
      assert Codes(entries)[1..] == Codes(entries[1..]);
      TextsOfCodes(entries[1..]);
    }
  }

  lemma {:induction false} TextsOfTable(table: CodeRows, sent: set<string>)
    ensures Texts(EmitTable(table, sent).0) == AllCode(table)
  {
    if table != [] {
      var head: seq<Item> := if table[0].0 in sent then [Dispatcher(table[0].0, TagsOf(table[0].1))] else [];
      TextsAppend(head, Codes(table[0].1));
      TextsAppend(EmitRow(table[0].0, table[0].1, sent), EmitTable(table[1..], sent).0);
      TextsOfCodes(table[0].1);
      TextsOfTable(table[1..], sent);
      if head != [] { assert head[1..] == []; }
    }
  }

  /** Every implementation's code is written exactly once, in code-table
      order, whatever is sent dynamically. */
  lemma EveryCodeEmitted(table: CodeRows, sent: set<string>)
    ensures Texts(MethodSection(table, sent)) == AllCode(table)
  {
    var missing := SortedSet(Unimplemented(table, sent));
    TextsAppend(EmitTable(table, sent).0, EmptyDispatchers(missing));
    TextsOfTable(table, sent);
    TextsOfEmptyDispatchers(missing);
  }
}

=== FILE: errors.dfy ===
/** The conditions that abandon the compilation of one source file. */
module Errors {

  datatype CompileError =
    | NoMainMethod              // the toplevel block defines no `main`
    | ExhaustedTagIds           // more regular blocks than regular tags
    | ExhaustedConstantTagIds   // more constant blocks than constant tags
    | StringTooLong             // a literal's UTF-8 length does not fit the 32-bit header
}

=== FILE: liveness.dfy ===
/** Liveness analysis: which messages need a dynamic dispatcher
    (`sent_messages`) and which (tag, message) pairs are reached by direct
    calls (`called_methods`); together they decide which methods survive. */
module Liveness {
  import opened Wrappers
  import opened Ast

  /** `should_include_method`: a method named `symbol` owned by `tag` is
      kept when its message is dispatched dynamically, or when that very
      (tag, message) pair is called directly. */
  predicate ShouldInclude(symbol: string, tag: int, sent: set<string>, called: set<(int, string)>) {
    symbol in sent || (tag, symbol) in called
  }

  /** A method kept under smaller sets is kept under larger ones. */
  lemma IncludeMonotone(symbol: string, tag: int, sent: set<string>, sent': set<string>,
                        called: set<(int, string)>, called': set<(int, string)>)
    requires sent <= sent' && called <= called'
    requires ShouldInclude(symbol, tag, sent, called)
    ensures ShouldInclude(symbol, tag, sent', called')
  {
  }

  /** The symbols of the sends whose receiver is not known statically. */
  function DynamicSymbols(sends: seq<Send>): (r: set<string>)
    ensures forall s :: s in r <==>
              exists i :: 0 <= i < |sends| && sends[i].receiver.None? && sends[i].symbol == s
  {
    if sends == [] then {}
    else
      var rest := DynamicSymbols(sends[1..]);
      assert forall i :: 0 <= i < |sends[1..]| ==> sends[1..][i] == sends[i + 1];
      if sends[0].receiver.None? then {sends[0].symbol} + rest else rest
  }

  /** `sent_messages` before the builtin pass: `string` and every symbol sent
      to an unknown receiver. */
  function InitialSent(sends: seq<Send>): (r: set<string>)
    ensures "string" in r
    ensures forall s :: s in r <==>
              s == "string" || exists i :: 0 <= i < |sends| && sends[i].receiver.None? && sends[i].symbol == s
  {
    {"string"} + DynamicSymbols(sends)
  }

  /** The (receiver tag, symbol) pairs of the sends whose receiver is known,
      except those whose symbol `sent` already holds. */
  function DirectCalls(blocks: seq<Block>, sends: seq<Send>, sent: set<string>): (r: set<(int, string)>)
    requires ReceiversValid(sends, |blocks|)
    ensures forall p :: p in r <==>
              exists i :: 0 <= i < |sends| && sends[i].receiver.Some? && sends[i].symbol !in sent
                          && p == (blocks[sends[i].receiver.value].tag, sends[i].symbol)
  {
    if sends == [] then {}
    else
      var rest := DirectCalls(blocks, sends[1..], sent);
      assert forall i :: 0 <= i < |sends[1..]| ==> sends[1..][i] == sends[i + 1];
      var s := sends[0];
      if s.receiver.Some? && s.symbol !in sent then {(blocks[s.receiver.value].tag, s.symbol)} + rest
      else rest
  }

  /** Every message a builtin method declares it may send. */
  function Declared(builtins: seq<BuiltinMethod>): set<string> {
    set i, m | 0 <= i < |builtins| && m in builtins[i].sentMessages :: m
  }

  /** The single pass over the builtin methods, in order: one that declares
      messages and is kept under the sets as they stand at its turn adds its
      messages. `called` never changes. */
  function BuiltinPass(builtins: seq<BuiltinMethod>, builtinTag: int,
                       sent: set<string>, called: set<(int, string)>): (r: set<string>)
    ensures sent <= r <= sent + Declared(builtins)
    ensures forall i :: 0 <= i < |builtins| && ShouldInclude(builtins[i].symbol, builtinTag, sent, called)
              ==> builtins[i].sentMessages <= r
    ensures forall m :: m in r && m !in sent ==>
              exists i :: 0 <= i < |builtins| && m in builtins[i].sentMessages
                          && ShouldInclude(builtins[i].symbol, builtinTag, r, called)
  {
    if builtins == [] then sent
    else
      var b := builtins[0];
      var sent' := if b.sentMessages != {} && ShouldInclude(b.symbol, builtinTag, sent, called)
                   then sent + b.sentMessages else sent;
      var r := BuiltinPass(builtins[1..], builtinTag, sent', called);
      assert Declared(builtins[1..]) <= Declared(builtins) by {
        forall m | m in Declared(builtins[1..]) ensures m in Declared(builtins) {
          var i :| 0 <= i < |builtins[1..]| && m in builtins[1..][i].sentMessages;
          assert builtins[i + 1] == builtins[1..][i];
        }
      }
      assert b.sentMessages <= Declared(builtins) by {
        assert builtins[0] == b;
      }
      assert forall i :: 1 <= i < |builtins| ==> builtins[i] == builtins[1..][i - 1];
      forall m | m in r && m !in sent
        ensures exists i :: 0 <= i < |builtins| && m in builtins[i].sentMessages
                            && ShouldInclude(builtins[i].symbol, builtinTag, r, called)
      {
        if m in sent' {
          IncludeMonotone(b.symbol, builtinTag, sent, r, called, called);
          assert builtins[0] == b;
        } else {
          var k :| 0 <= k < |builtins[1..]| && m in builtins[1..][k].sentMessages
                   && ShouldInclude(builtins[1..][k].symbol, builtinTag, r, called);
          assert builtins[k + 1] == builtins[1..][k];
        }
      }
      r
  }

  /** The pass visits the builtins in list order: running it over one more
      builtin is one more step on the sets the earlier builtins left. */
  lemma {:induction false} BuiltinPassSnoc(builtins: seq<BuiltinMethod>, b: BuiltinMethod, builtinTag: int,
                                           sent: set<string>, called: set<(int, string)>)
    ensures var r := BuiltinPass(builtins, builtinTag, sent, called);
            BuiltinPass(builtins + [b], builtinTag, sent, called)
              == if b.sentMessages != {} && ShouldInclude(b.symbol, builtinTag, r, called)
                 then r + b.sentMessages else r
  {
    var bs := builtins + [b];
    if builtins == [] {
      assert bs[0] == b && bs[1..] == [];
    } else {
      var c := builtins[0];
      var sent' := if c.sentMessages != {} && ShouldInclude(c.symbol, builtinTag, sent, called)
                   then sent + c.sentMessages else sent;
      assert bs[0] == c && bs[1..] == builtins[1..] + [b];
      BuiltinPassSnoc(builtins[1..], b, builtinTag, sent', called);
    }
  }

  /** The two sets `find_used_methods` computes. */
  datatype Usage = Usage(sent: set<string>, called: set<(int, string)>)

  /** `find_used_methods`. */
  function FindUsedMethods(blocks: seq<Block>, toplevel: nat, sends: seq<Send>,
                           builtins: seq<BuiltinMethod>, builtinTag: int): (u: Usage)
    requires toplevel < |blocks| && ReceiversValid(sends, |blocks|)
    ensures "string" in u.sent
    ensures forall i :: 0 <= i < |sends| && sends[i].receiver.None? ==> sends[i].symbol in u.sent
    ensures InitialSent(sends) <= u.sent
    ensures forall i :: 0 <= i < |builtins| && ShouldInclude(builtins[i].symbol, builtinTag, InitialSent(sends), u.called)
              ==> builtins[i].sentMessages <= u.sent
    ensures forall m :: m in u.sent && m !in InitialSent(sends) ==>
              exists i :: 0 <= i < |builtins| && m in builtins[i].sentMessages
                          && ShouldInclude(builtins[i].symbol, builtinTag, u.sent, u.called)
    ensures forall p :: p in u.called <==>
              || p == (blocks[toplevel].tag, "main")
              || exists i :: 0 <= i < |sends| && sends[i].receiver.Some?
                             && sends[i].symbol !in InitialSent(sends)
                             && p == (blocks[sends[i].receiver.value].tag, sends[i].symbol)
  {
    var sent := InitialSent(sends);
    var called := {(blocks[toplevel].tag, "main")} + DirectCalls(blocks, sends, sent);
    Usage(BuiltinPass(builtins, builtinTag, sent, called), called)
  }

  /** Dead-code elimination keeps every method a send can reach: for a send
      to an unknown receiver, the method of that name in every block; for a
      send to a known receiver, that block's method of that name. */
  lemma SendTargetsIncluded(blocks: seq<Block>, toplevel: nat, sends: seq<Send>,
                            builtins: seq<BuiltinMethod>, builtinTag: int, i: nat, j: nat)
    requires toplevel < |blocks| && ReceiversValid(sends, |blocks|)
    requires i < |sends| && j < |blocks|
    requires sends[i].receiver.None? || sends[i].receiver == Some(j)
    ensures var u := FindUsedMethods(blocks, toplevel, sends, builtins, builtinTag);
            ShouldInclude(sends[i].symbol, blocks[j].tag, u.sent, u.called)
  {
  }

  /** A message sent only to known receivers gets no dispatcher, yet each
      such (receiver tag, message) pair is recorded as a direct call. */
  lemma StaticSendRecorded(blocks: seq<Block>, toplevel: nat, sends: seq<Send>,
                           builtins: seq<BuiltinMethod>, builtinTag: int, i: nat)
    requires toplevel < |blocks| && ReceiversValid(sends, |blocks|)
    requires i < |sends| && sends[i].receiver.Some?
    requires sends[i].symbol !in FindUsedMethods(blocks, toplevel, sends, builtins, builtinTag).sent
    ensures (blocks[sends[i].receiver.value].tag, sends[i].symbol)
              in FindUsedMethods(blocks, toplevel, sends, builtins, builtinTag).called
  {
  }

  /** The builtin pass is not a fixed point: a builtin skipped at its turn can
      become live through a later builtin, and its own messages are then
      missing from `sent_messages`. */
  lemma BuiltinPassNotClosed()
    ensures var bs := [BuiltinMethod(0, "p", "", {"q"}), BuiltinMethod(0, "r", "", {"p"})];
            var r := BuiltinPass(bs, 0, {"string", "r"}, {});
            && ShouldInclude(bs[0].symbol, 0, r, {})
            && !(bs[0].sentMessages <= r)
  {
    var bs := [BuiltinMethod(0, "p", "", {"q"}), BuiltinMethod(0, "r", "", {"p"})];
    assert "p" != "string" && "p" != "r";
    assert BuiltinPass(bs, 0, {"string", "r"}, {}) == {"string", "r", "p"} by {
      assert bs[1..] == [bs[1]];
      assert bs[1..][1..] == [];
    }
    assert "q" != "string" && "q" != "r" && "q" != "p";
  }
}

=== FILE: string_order.dfy ===
/** The order Python's `sorted` puts strings in: lexicographic by code
    point, a proper prefix first. */
module StringOrder {

  /** `a` sorts strictly before `b`. */
  predicate Less(a: string, b: string) {
    if a == [] then b != []
    else if b == [] then false
    else if a[0] == b[0] then Less(a[1..], b[1..])
    else a[0] < b[0]
  }

  lemma {:induction false} LessIrreflexive(a: string)
    ensures !Less(a, a)
  {
    if a != [] { LessIrreflexive(a[1..]); }
  }

  lemma {:induction false} LessAsymmetric(a: string, b: string)
    requires Less(a, b)
    ensures !Less(b, a)
  {
    if a != [] && b != [] && a[0] == b[0] { LessAsymmetric(a[1..], b[1..]); }
  }

  lemma {:induction false} LessTransitive(a: string, b: string, c: string)
    requires Less(a, b) && Less(b, c)
    ensures Less(a, c)
  {
    if a != [] && b != [] && c != [] && a[0] == b[0] && b[0] == c[0] {
      LessTransitive(a[1..], b[1..], c[1..]);
    }
  }

  lemma {:induction false} LessTotal(a: string, b: string)
    requires a != b
    ensures Less(a, b) || Less(b, a)
  {
    if a != [] && b != [] && a[0] == b[0] {
      assert a == [a[0]] + a[1..] && b == [b[0]] + b[1..];
      LessTotal(a[1..], b[1..]);
    }
  }

  /** `m` comes first in `s`. */
  predicate IsLeast(m: string, s: set<string>) {
    m in s && forall x :: x in s ==> x == m || Less(m, x)
  }

  /** Every non-empty finite set of strings has a least element. */
  lemma {:induction false} LeastExists(s: set<string>)
    requires s != {}
    ensures exists m :: IsLeast(m, s)
    decreases |s|
  {
    var x :| x in s;
    if s - {x} == {} {
      assert s == {x};
      assert IsLeast(x, s);
    } else {
      LeastExists(s - {x});
      var m :| IsLeast(m, s - {x});
      if Less(m, x) {
        assert IsLeast(m, s);
      } else {
        LessTotal(m, x);
        forall y | y in s && y != x
          ensures Less(x, y)
        {
          if y != m { LessTransitive(x, m, y); }
        }
        assert IsLeast(x, s);
      }
    }
  }

  /** There is only one least element. */
  lemma LeastUnique(m1: string, m2: string, s: set<string>)
    requires IsLeast(m1, s) && IsLeast(m2, s)
    ensures m1 == m2
  {
    if m1 != m2 {
      LessAsymmetric(m1, m2);
    }
  }

  /** `sorted(s)` for a set of strings: its elements, each once, in
      strictly increasing order. */
  function SortedSet(s: set<string>): (r: seq<string>)
    ensures |r| == |s|
    ensures forall x :: x in r <==> x in s
    ensures forall i, j :: 0 <= i < j < |r| ==> Less(r[i], r[j])
    decreases |s|
  {
    if s == {} then []
    else
      LeastExists(s);
      forall m1, m2 | IsLeast(m1, s) && IsLeast(m2, s) ensures m1 == m2 { LeastUnique(m1, m2, s); }
      var m :| IsLeast(m, s);
      var rest := SortedSet(s - {m});
      assert forall j :: 0 <= j < |rest| ==> Less(m, rest[j]) by {
        forall j | 0 <= j < |rest| ensures Less(m, rest[j]) { assert rest[j] in s - {m}; }
      }
      [m] + rest
  }
}

=== FILE: tags.dfy ===
/** Tag allocation: regular blocks are numbered from the first user tag and
    constant blocks from the first user constant number, in block-list
    order, in two separate passes, each checked against its capacity. */
module Tags {
  import opened Wrappers
  import opened Errors
  import opened Constants
  import opened Ast

  /** How many blocks of the given kind (constant or not) `blocks` holds. */
  function Count(blocks: seq<Block>, constant: bool): (n: nat)
    ensures n <= |blocks|
  {
    if blocks == [] then 0
    else (if blocks[0].isConstant == constant then 1 else 0) + Count(blocks[1..], constant)
  }

  lemma {:induction false} CountSnoc(blocks: seq<Block>, b: Block, constant: bool)
    ensures Count(blocks + [b], constant)
         == Count(blocks, constant) + (if b.isConstant == constant then 1 else 0)
  {
    if blocks != [] {
      assert (blocks + [b])[1..] == blocks[1..] + [b];
      CountSnoc(blocks[1..], b, constant);
    } else {
      assert [b][1..] == [];
    }
  }

  /** Counting a longer prefix never gives less, and passing a block of the
      counted kind gives strictly more. */
  lemma {:induction false} CountPrefixGrows(blocks: seq<Block>, i: nat, j: nat, constant: bool)
    requires i < j <= |blocks|
    ensures Count(blocks[..i], constant) <= Count(blocks[..j], constant)
    ensures blocks[i].isConstant == constant ==> Count(blocks[..i], constant) < Count(blocks[..j], constant)
    decreases j - i
  {
    assert blocks[..i + 1] == blocks[..i] + [blocks[i]];
    CountSnoc(blocks[..i], blocks[i], constant);
    if i + 1 < j {
      CountPrefixGrows(blocks, i + 1, j, constant);
    }
  }

  lemma CountPrefixCons(blocks: seq<Block>, constant: bool)
    requires blocks != []
    ensures forall i :: 1 <= i <= |blocks| ==>
              Count(blocks[..i], constant)
              == (if blocks[0].isConstant == constant then 1 else 0) + Count(blocks[1..][..i - 1], constant)
  {
    forall i | 1 <= i <= |blocks|
      ensures Count(blocks[..i], constant)
              == (if blocks[0].isConstant == constant then 1 else 0) + Count(blocks[1..][..i - 1], constant)
    {
      assert blocks[..i][1..] == blocks[1..][..i - 1];
    }
  }

  /** The block with its tag fields set from counter value `n`: a regular
      block gets tag `n`; a constant block gets constant number `n` and tag
      `constantToTag(n)`. */
  function Numbered(b: Block, n: int, constantToTag: int -> int): Block {
    if b.isConstant then b.(tag := constantToTag(n), tagConstant := n) else b.(tag := n)
  }

  /** One allocation pass: every block of the kind numbered in list order
      from `next`, the others untouched; returns the counter after the loop. */
  function Assign(blocks: seq<Block>, constant: bool, next: int, constantToTag: int -> int)
    : (r: (seq<Block>, int))
    ensures |r.0| == |blocks|
    ensures r.1 == next + Count(blocks, constant)
  {
    if blocks == [] then ([], next)
    else
      var b := blocks[0];
      var matches := b.isConstant == constant;
      var rest := Assign(blocks[1..], constant, if matches then next + 1 else next, constantToTag);
      ([if matches then Numbered(b, next, constantToTag) else b] + rest.0, rest.1)
  }

  /** After a pass, a block of the kind carries the counter value that
      many blocks of its kind precede it; any other block is unchanged. */
  lemma {:induction false} AssignAt(blocks: seq<Block>, constant: bool, next: int,
                                    constantToTag: int -> int, i: nat)
    requires i < |blocks|
    ensures Assign(blocks, constant, next, constantToTag).0[i]
         == if blocks[i].isConstant == constant
            then Numbered(blocks[i], next + Count(blocks[..i], constant), constantToTag)
            else blocks[i]
  {
    var matches := blocks[0].isConstant == constant;
    var next' := if matches then next + 1 else next;
    if i == 0 {
      assert blocks[..0] == [];
    } else {
      AssignAt(blocks[1..], constant, next', constantToTag, i - 1);
      assert blocks[..i][1..] == blocks[1..][..i - 1];
      assert blocks[..i][0] == blocks[0];
    }
  }

  /** `allocate_tag_ids`: regular blocks get `tagUser, tagUser+1, ...`; the
      pass fails when the counter after the loop exceeds MAX_TAG. */
  function AllocateTagIds(blocks: seq<Block>, env: Env): (r: Result<seq<Block>, CompileError>)
    ensures r.Err? <==> env.tagUser + Count(blocks, false) > MAX_TAG
    ensures r.Err? ==> r.error == ExhaustedTagIds
    ensures r.Ok? ==> |r.value| == |blocks|
    ensures r.Ok? ==> forall i :: 0 <= i < |blocks| ==>
              if blocks[i].isConstant then r.value[i] == blocks[i]
              else r.value[i] == blocks[i].(tag := env.tagUser + Count(blocks[..i], false))
                   && env.tagUser <= r.value[i].tag < MAX_TAG
  {
    var a := Assign(blocks, false, env.tagUser, env.constantToTag);
    if a.1 > MAX_TAG then Err(ExhaustedTagIds)
    else
      forall i | 0 <= i < |blocks| ensures
        if blocks[i].isConstant then a.0[i] == blocks[i]
        else a.0[i] == blocks[i].(tag := env.tagUser + Count(blocks[..i], false))
             && env.tagUser <= a.0[i].tag < MAX_TAG
      {
        PassAt(blocks, false, env.tagUser, env.constantToTag, MAX_TAG, i);
      }
      Ok(a.0)
  }

  /** One block after a pass that stayed within `bound`: numbered from its
      place among the blocks of its kind, with a number below `bound`. */
  lemma PassAt(blocks: seq<Block>, constant: bool, next: int, constantToTag: int -> int, bound: int, i: nat)
    requires next + Count(blocks, constant) <= bound && i < |blocks|
    ensures var n := next + Count(blocks[..i], constant);
            var b := Assign(blocks, constant, next, constantToTag).0[i];
            && (blocks[i].isConstant != constant ==> b == blocks[i])
            && (blocks[i].isConstant == constant ==> b == Numbered(blocks[i], n, constantToTag) && next <= n < bound)
  {
    AssignAt(blocks, constant, next, constantToTag, i);
    if blocks[i].isConstant == constant {
      CountPrefixGrows(blocks, i, |blocks|, constant);
      assert blocks[..|blocks|] == blocks;
    }
  }

  /** `allocate_constant_tag_ids`: constant blocks get constant numbers
      `constantUser, constantUser+1, ...` and the tags those map to; the pass
      fails when the counter after the loop exceeds MAX_CONSTANT_TAG. */
  function AllocateConstantTagIds(blocks: seq<Block>, env: Env): (r: Result<seq<Block>, CompileError>)
    ensures r.Err? <==> env.constantUser + Count(blocks, true) > MAX_CONSTANT_TAG
    ensures r.Err? ==> r.error == ExhaustedConstantTagIds
    ensures r.Ok? ==> |r.value| == |blocks|
    ensures r.Ok? ==> forall i :: 0 <= i < |blocks| ==>
              if !blocks[i].isConstant then r.value[i] == blocks[i]
              else && r.value[i].tagConstant == env.constantUser + Count(blocks[..i], true)
                   && r.value[i] == blocks[i].(tag := env.constantToTag(r.value[i].tagConstant),
                                               tagConstant := r.value[i].tagConstant)
                   && env.constantUser <= r.value[i].tagConstant < MAX_CONSTANT_TAG
  {
    var a := Assign(blocks, true, env.constantUser, env.constantToTag);
    if a.1 > MAX_CONSTANT_TAG then Err(ExhaustedConstantTagIds)
    else
      forall i | 0 <= i < |blocks| ensures
        if !blocks[i].isConstant then a.0[i] == blocks[i]
        else && a.0[i].tagConstant == env.constantUser + Count(blocks[..i], true)
             && a.0[i] == blocks[i].(tag := env.constantToTag(a.0[i].tagConstant),
                                     tagConstant := a.0[i].tagConstant)
             && env.constantUser <= a.0[i].tagConstant < MAX_CONSTANT_TAG
      {
        PassAt(blocks, true, env.constantUser, env.constantToTag, MAX_CONSTANT_TAG, i);
      }
      Ok(a.0)
  }

  /** Counting sees only which blocks are constant. */
  lemma {:induction false} CountSameKinds(a: seq<Block>, b: seq<Block>, constant: bool)
    requires |a| == |b| && forall i :: 0 <= i < |a| ==> a[i].isConstant == b[i].isConstant
    ensures Count(a, constant) == Count(b, constant)
  {
    if a != [] {
      CountSameKinds(a[1..], b[1..], constant);
    }
  }

  /** Both passes, in the order the program runs them. */
  function AllocateAll(blocks: seq<Block>, env: Env): (r: Result<seq<Block>, CompileError>)
    ensures r.Err? <==> env.tagUser + Count(blocks, false) > MAX_TAG
                        || env.constantUser + Count(blocks, true) > MAX_CONSTANT_TAG
    ensures env.tagUser + Count(blocks, false) > MAX_TAG ==> r == Err(ExhaustedTagIds)
    ensures env.tagUser + Count(blocks, false) <= MAX_TAG && env.constantUser + Count(blocks, true) > MAX_CONSTANT_TAG
            ==> r == Err(ExhaustedConstantTagIds)
    ensures r.Ok? ==> |r.value| == |blocks|
    ensures r.Ok? ==> forall i :: 0 <= i < |blocks| ==>
              r.value[i].methods == blocks[i].methods && r.value[i].isConstant == blocks[i].isConstant
  {
    var regular :- AllocateTagIds(blocks, env);
    CountSameKinds(regular, blocks, true);
    AllocateConstantTagIds(regular, env)
  }

  /** The assumption made about the constant-number-to-tag map, which is
      defined outside the core: it is injective on the constant numbers the
      allocator can hand out, and sends them at or above MIN_CONSTANT_TAG. */
  ghost predicate ConstantTagMapOk(env: Env) {
    && (forall c1, c2 ::
          (&& env.constantUser <= c1 < MAX_CONSTANT_TAG
           && env.constantUser <= c2 < MAX_CONSTANT_TAG
           && env.constantToTag(c1) == env.constantToTag(c2))
          ==> c1 == c2)
    && (forall c :: env.constantUser <= c < MAX_CONSTANT_TAG ==> env.constantToTag(c) >= MIN_CONSTANT_TAG)
  }

  /** Adding MIN_CONSTANT_TAG is one map that meets the assumption, so the
      assumption can hold. */
  lemma ConstantTagMapSatisfiable(env: Env)
    requires env.constantUser >= 0
    requires forall c :: env.constantToTag(c) == MIN_CONSTANT_TAG + c
    ensures ConstantTagMapOk(env)
  {
  }

  /** After both passes every block has a tag of its own: regular tags lie in
      [tagUser, MAX_TAG), constant tags at or above MIN_CONSTANT_TAG, and no
      two blocks share a tag. */
  lemma {:induction false} TagsDistinct(blocks: seq<Block>, env: Env)
    requires ConstantTagMapOk(env)
    requires AllocateAll(blocks, env).Ok?
    ensures var bs := AllocateAll(blocks, env).value;
            && (forall i :: 0 <= i < |bs| && !bs[i].isConstant ==> env.tagUser <= bs[i].tag < MAX_TAG)
            && (forall i :: 0 <= i < |bs| && bs[i].isConstant ==> bs[i].tag >= MIN_CONSTANT_TAG)
            && (forall i, j :: 0 <= i < j < |bs| ==> bs[i].tag != bs[j].tag)
  {
    var bs := AllocateAll(blocks, env).value;
    forall i | 0 <= i < |bs|
      ensures !bs[i].isConstant ==> env.tagUser <= bs[i].tag < MAX_TAG
      ensures bs[i].isConstant ==> bs[i].tag >= MIN_CONSTANT_TAG
    {
      TagInRange(blocks, env, i);
    }
    forall i, j | 0 <= i < j < |bs|
      ensures bs[i].tag != bs[j].tag
    {
      TwoTagsDiffer(blocks, env, i, j);
    }
  }

  /** Where one block's final tag lies. */
  lemma TagInRange(blocks: seq<Block>, env: Env, i: nat)
    requires ConstantTagMapOk(env)
    requires AllocateAll(blocks, env).Ok?
    requires i < |blocks|
    ensures var b := AllocateAll(blocks, env).value[i];
            && b.isConstant == blocks[i].isConstant
            && (!b.isConstant ==> env.tagUser <= b.tag < MAX_TAG)
            && (b.isConstant ==> b.tag >= MIN_CONSTANT_TAG)
  {
    var regular := AllocateTagIds(blocks, env).value;
    var bs := AllocateConstantTagIds(regular, env).value;
    assert bs == AllocateAll(blocks, env).value;
    assert regular[i].isConstant == blocks[i].isConstant;
  }

  /** Two blocks, taken in list order, end with different tags. */
  lemma TwoTagsDiffer(blocks: seq<Block>, env: Env, i: nat, j: nat)
    requires ConstantTagMapOk(env)
    requires AllocateAll(blocks, env).Ok?
    requires i < j < |blocks|
    ensures AllocateAll(blocks, env).value[i].tag != AllocateAll(blocks, env).value[j].tag
  {
    var regular := AllocateTagIds(blocks, env).value;
    var bs := AllocateConstantTagIds(regular, env).value;
    assert bs == AllocateAll(blocks, env).value;
    assert regular[i].isConstant == blocks[i].isConstant && regular[j].isConstant == blocks[j].isConstant;
    if !blocks[i].isConstant && !blocks[j].isConstant {
      CountPrefixGrows(blocks, i, j, false);
    } else if blocks[i].isConstant && blocks[j].isConstant {
      CountPrefixGrows(regular, i, j, true);
    }
  }

  /** The regular tags handed out are exactly tagUser .. tagUser + N - 1 for
      N regular blocks: every value in that range belongs to some block. */
  lemma {:induction false} RegularTagsOnto(blocks: seq<Block>, env: Env, t: int)
    requires AllocateTagIds(blocks, env).Ok?
    requires env.tagUser <= t < env.tagUser + Count(blocks, false)
    ensures exists i :: 0 <= i < |blocks| && !blocks[i].isConstant
                        && AllocateTagIds(blocks, env).value[i].tag == t
  {
    FindNthExists(blocks, t - env.tagUser);
    var k :| 0 <= k < |blocks| && !blocks[k].isConstant && Count(blocks[..k], false) == t - env.tagUser;
    assert AllocateTagIds(blocks, env).value[k].tag == t;
  }

  /** Some regular block comes after exactly `n` others. */
  lemma {:induction false} FindNthExists(blocks: seq<Block>, n: nat)
    requires n < Count(blocks, false)
    ensures exists k :: 0 <= k < |blocks| && !blocks[k].isConstant && Count(blocks[..k], false) == n
  {
    CountPrefixCons(blocks, false);
    if !blocks[0].isConstant && n == 0 {
      assert Count(blocks[..0], false) == 0;
    } else {
      var n' := if !blocks[0].isConstant then n - 1 else n;
      FindNthExists(blocks[1..], n');
      var k' :| 0 <= k' < |blocks[1..]| && !blocks[1..][k'].isConstant && Count(blocks[1..][..k'], false) == n';
      assert Count(blocks[..k' + 1], false) == n;
    }
  }
}

=== FILE: traceback.dfy ===
/** Traceback information for send sites: the header and trimmed source
    line interned in the data table, the column corrected for the stripped
    indentation, and the length of the underline. */
module Traceback {
  import opened Wrappers
  import opened Errors
  import opened Ast
  import opened DataTable

  /** The code points Python's `str.isspace` accepts: the characters
      `strip` removes by default. */
  const SPACE_CODES: set<int> :=
    set n: int | 0x09 <= n <= 0x3000 &&
      (|| 0x09 <= n <= 0x0D || 0x1C <= n <= 0x20 || n == 0x85 || n == 0xA0 || n == 0x1680
       || 0x2000 <= n <= 0x200A || n == 0x2028 || n == 0x2029 || n == 0x202F || n == 0x205F
       || n == 0x3000)

  predicate IsSpace(c: char) {
    c as int in SPACE_CODES
  }

  /** `rstrip()`: the longest prefix that does not end in whitespace. */
  function RStrip(s: string): (r: string)
    ensures |r| <= |s| && r == s[..|r|]
    ensures r == [] || !IsSpace(r[|r| - 1])
  {
    if s == [] || !IsSpace(s[|s| - 1]) then s else RStrip(s[..|s| - 1])
  }

  /** Everything `rstrip()` removes is whitespace. */
  lemma {:induction false} RStripRemovesSpaces(s: string)
    ensures forall i :: |RStrip(s)| <= i < |s| ==> IsSpace(s[i])
  {
    if s != [] && IsSpace(s[|s| - 1]) {
      var p := s[..|s| - 1];
      RStripRemovesSpaces(p);
      forall i | |RStrip(s)| <= i < |s| ensures IsSpace(s[i]) {
        if i < |p| {
          assert s[i] == p[i];
        }
      }
    }
  }

  /** `lstrip()`: the longest suffix that does not start with whitespace. */
  function LStrip(s: string): (r: string)
    ensures |r| <= |s| && r == s[|s| - |r|..]
    ensures r == [] || !IsSpace(r[0])
  {
    if s == [] || !IsSpace(s[0]) then s else LStrip(s[1..])
  }

  /** Everything `lstrip()` removes is whitespace. */
  lemma {:induction false} LStripRemovesSpaces(s: string)
    ensures forall i :: 0 <= i < |s| - |LStrip(s)| ==> IsSpace(s[i])
  {
    if s != [] && IsSpace(s[0]) {
      var p := s[1..];
      LStripRemovesSpaces(p);
      forall i | 0 < i < |s| - |LStrip(s)| ensures IsSpace(s[i]) {
        assert s[i] == p[i - 1];
      }
    }
  }

  /** The source line as printed: trailing, then leading whitespace removed. */
  function Trimmed(line: string): string {
    LStrip(RStrip(line))
  }

  /** The column in the printed traceback: four characters of indentation
      in front of the trimmed line, minus the leading whitespace removed. */
  function Column(ps: ParseState): int {
    var unstripped := RStrip(ps.currentLine);
    var line := LStrip(unstripped);
    4 + (ps.column - (|unstripped| - |line|))
  }

  /** The indentation the header ends with, in front of the trimmed line. */
  const Indent: string := "    "

  /** The corrected column points at the same character in the printed
      line as the parser's column does in the original line, whenever the
      parser's column lies in the visible text. */
  lemma ColumnPointsAtSameCharacter(ps: ParseState)
    requires var u := RStrip(ps.currentLine); |u| - |LStrip(u)| <= ps.column < |u|
    ensures 4 <= Column(ps) < 4 + |Trimmed(ps.currentLine)|
    ensures (Indent + Trimmed(ps.currentLine))[Column(ps)] == ps.currentLine[ps.column]
  {
    var u := RStrip(ps.currentLine);
    var line := LStrip(u);
    ShiftedIndex(ps.currentLine, u, line, ps.column);
  }

  /** Position `c` of `s`, inside the suffix `line` of the prefix `u` of
      `s`, sits at the shifted position of `Indent + line`. */
  lemma ShiftedIndex(s: seq<char>, u: seq<char>, line: seq<char>, c: int)
    requires |u| <= |s| && u == s[..|u|]
    requires |line| <= |u| && line == u[|u| - |line|..]
    requires |u| - |line| <= c < |u|
    ensures (Indent + line)[4 + (c - (|u| - |line|))] == s[c]
  {
    var k := c - (|u| - |line|);
    assert line[k] == u[c];
    assert (Indent + line)[4 + k] == line[k];
  }

  /** `str.find`: the position of the first `c`, or -1. */
  function Find(s: string, c: char): (r: int)
    ensures -1 <= r < |s|
    ensures r == -1 <==> c !in s
    ensures r >= 0 ==> s[r] == c && c !in s[..r]
  {
    if s == [] then -1
    else if s[0] == c then 0
    else
      var k := Find(s[1..], c);
      assert s[1..][..k + 1] == s[1..k + 2] by { if k >= 0 { assert k + 2 <= |s|; } }
      if k < 0 then -1
      else
        assert s[..k + 1] == [s[0]] + s[1..][..k];
        k + 1
  }

  /** The underline covers a keyword message up to and including its first
      `:`, and any other message in full. */
  function Underline(symbol: string): (n: nat)
    ensures ':' in symbol ==> 1 <= n <= |symbol| && symbol[n - 1] == ':' && ':' !in symbol[..n - 1]
    ensures ':' !in symbol ==> n == |symbol|
  {
    var underline := Find(symbol, ':') + 1;
    if underline < 1 then |symbol| else underline
  }

  /** The decimal digit for `d`. */
  function DigitChar(d: nat): (c: char)
    requires d < 10
    ensures '0' <= c <= '9' && c as int - '0' as int == d
  {
    ('0' as int + d) as char
  }

  /** `str(n)` for a natural number: its decimal digits, without leading zeros. */
  function DecimalString(n: nat): (s: string)
    ensures |s| >= 1
    ensures forall i :: 0 <= i < |s| ==> '0' <= s[i] <= '9'
    ensures s[0] == '0' ==> n == 0
  {
    if n < 10 then [DigitChar(n)] else DecimalString(n / 10) + [DigitChar(n % 10)]
  }

  /** Reads decimal digits back as a number. */
  function ParseDecimal(s: string): nat
    requires forall i :: 0 <= i < |s| ==> '0' <= s[i] <= '9'
  {
    if s == [] then 0
    else ParseDecimal(s[..|s| - 1]) * 10 + (s[|s| - 1] as int - '0' as int)
  }

  lemma {:induction false} ParseDecimalString(n: nat)
    ensures ParseDecimal(DecimalString(n)) == n
  {
    if n >= 10 {
      var s := DecimalString(n);
      assert s[..|s| - 1] == DecimalString(n / 10);
      ParseDecimalString(n / 10);
    }
  }

  /** The header line of a traceback entry. */
  function FileInfo(ps: ParseState, methodSymbol: string): string {
    "\n  File \"" + ps.streamName + "\", line " + DecimalString(ps.lineNumber)
      + ", in |" + methodSymbol + "|\n" + Indent
  }

  /** The traceback of one send: a key identifying the call site, the data
      offsets of the header and of the trimmed line, the corrected column
      and the underline length. */
  datatype TraceBackInfo = TraceBackInfo(
    id: (string, nat, int), fileInfo: nat, sourceLine: nat, column: int, underline: nat)

  /** `info` is the traceback of `send`, whose strings `t` holds. */
  predicate Describes(info: TraceBackInfo, send: Send, t: Table)
    requires send.parseState.Some?
  {
    var ps := send.parseState.value;
    && info.id == (ps.streamName, ps.lineNumber, ps.column)
    && info.column == Column(ps)
    && info.underline == Underline(send.symbol)
    && FileInfo(ps, send.methodSymbol) in t.stringOffsets
    && t.stringOffsets[FileInfo(ps, send.methodSymbol)] == info.fileInfo
    && Trimmed(ps.currentLine) in t.stringOffsets
    && t.stringOffsets[Trimmed(ps.currentLine)] == info.sourceLine
  }

  /** Both strings of a send's traceback can be encoded. */
  predicate Encodable(send: Send) {
    send.parseState.Some? ==>
      && EncodeStringData(FileInfo(send.parseState.value, send.methodSymbol)).Ok?
      && EncodeStringData(Trimmed(send.parseState.value.currentLine)).Ok?
  }

  lemma ExtendsTransitive(t1: Table, t2: Table, t3: Table)
    requires Extends(t1, t2) && Extends(t2, t3)
    ensures Extends(t1, t3)
  {
    assert t3.data[..|t1.data|] == t3.data[..|t2.data|][..|t1.data|];
  }

  /** The strings a send's traceback interns: the header, then the
      trimmed line, or none for a send without a parse state. */
  function SendStrings(send: Send): seq<string> {
    match send.parseState
    case None => []
    case Some(ps) => [FileInfo(ps, send.methodSymbol), Trimmed(ps.currentLine)]
  }

  /** The strings the traceback pass interns, send by send. */
  function TracebackStrings(sends: seq<Send>): seq<string> {
    if sends == [] then [] else SendStrings(sends[0]) + TracebackStrings(sends[1..])
  }

  /** The traceback of one send, allocating the header, then the line. */
  function SendTraceback(send: Send, t: Table): (r: Result<(Option<TraceBackInfo>, Table), CompileError>)
    ensures send.parseState.None? ==> r == Ok((None, t))
    ensures Encodable(send) ==> r.Ok?
    ensures r.Ok? ==> Interned(t, SendStrings(send), r.value.1)
    ensures r.Err? ==> r.error == StringTooLong
    ensures r.Ok? ==> var (info, t') := r.value;
              && (info.Some? <==> send.parseState.Some?)
              && (info.Some? ==> Describes(info.value, send, t'))
              && Extends(t, t')
              && (Valid(t) ==> Valid(t'))
              && (Valid(t) && Aligned(t) ==> Aligned(t'))
  {
    if send.parseState.None? then Ok((None, t))
    else
      var ps := send.parseState.value;
      var header :- AllocateStringOffset(t, FileInfo(ps, send.methodSymbol));
      var line :- AllocateStringOffset(header.0, Trimmed(ps.currentLine));
      ExtendsTransitive(t, header.0, line.0);
      AllocatePairInterns(t, FileInfo(ps, send.methodSymbol), Trimmed(ps.currentLine));
      var info := TraceBackInfo((ps.streamName, ps.lineNumber, ps.column), header.1, line.1,
                                Column(ps), Underline(send.symbol));
      Ok((Some(info), line.0))
  }

  /** `info` is what a send's traceback should be: present exactly when the
      send has a parse state, and then describing it in table `t`. */
  predicate Matches(info: Option<TraceBackInfo>, send: Send, t: Table) {
    && (info.Some? <==> send.parseState.Some?)
    && (info.Some? ==> Describes(info.value, send, t))
  }

  /** `Describes` survives appending to the table. */
  lemma DescribesExtends(info: Option<TraceBackInfo>, send: Send, t: Table, t': Table)
    requires Matches(info, send, t)
    requires Extends(t, t')
    ensures Matches(info, send, t')
  {
  }

  /** `infos` are the tracebacks of `sends`, in order, in table `t`. */
  predicate InfosDescribe(sends: seq<Send>, infos: seq<Option<TraceBackInfo>>, t: Table)
    decreases |sends|
  {
    && |infos| == |sends|
    && (sends != [] ==> Matches(infos[0], sends[0], t) && InfosDescribe(sends[1..], infos[1..], t))
  }

  /** The recursive description, read at one position. */
  lemma {:induction false} InfosDescribeAt(sends: seq<Send>, infos: seq<Option<TraceBackInfo>>, t: Table, i: nat)
    requires InfosDescribe(sends, infos, t) && i < |sends|
    ensures Matches(infos[i], sends[i], t)
  {
    if i > 0 {
      InfosDescribeAt(sends[1..], infos[1..], t, i - 1);
      assert sends[1..][i - 1] == sends[i] && infos[1..][i - 1] == infos[i];
    }
  }

  /** `infos` are the tracebacks of `sends`, in order, and `t'` is `t`
      with their strings added. */
  predicate TracebacksOf(sends: seq<Send>, infos: seq<Option<TraceBackInfo>>, t: Table, t': Table) {
    && InfosDescribe(sends, infos, t')
    && Extends(t, t')
    && (Valid(t) ==> Valid(t'))
    && (Valid(t) && Aligned(t) ==> Aligned(t'))
  }

  lemma InfosCons(sends: seq<Send>, info: Option<TraceBackInfo>, infos: seq<Option<TraceBackInfo>>,
                  t1: Table, t2: Table)
    requires sends != []
    requires Matches(info, sends[0], t1)
    requires Extends(t1, t2)
    requires InfosDescribe(sends[1..], infos, t2)
    ensures InfosDescribe(sends, [info] + infos, t2)
  {
    DescribesExtends(info, sends[0], t1, t2);
    assert ([info] + infos)[0] == info;
    assert ([info] + infos)[1..] == infos;
  }

  lemma TracebacksCons(sends: seq<Send>, info: Option<TraceBackInfo>, infos: seq<Option<TraceBackInfo>>,
                       t: Table, t1: Table, t2: Table)
    requires sends != []
    requires Matches(info, sends[0], t1)
    requires Extends(t, t1) && (Valid(t) ==> Valid(t1)) && (Valid(t) && Aligned(t) ==> Aligned(t1))
    requires TracebacksOf(sends[1..], infos, t1, t2)
    ensures TracebacksOf(sends, [info] + infos, t, t2)
  {
    ExtendsTransitive(t, t1, t2);
    InfosCons(sends, info, infos, t1, t2);
  }

  /** `compile_traceback_info`: every send that has a parse state gets its
      traceback, in send order, threading the data table through. */
  function CompileTracebackInfo(sends: seq<Send>, t: Table)
    : (r: Result<(seq<Option<TraceBackInfo>>, Table), CompileError>)
    ensures (forall i :: 0 <= i < |sends| ==> Encodable(sends[i])) ==> r.Ok?
    ensures r.Err? ==> r.error == StringTooLong
    ensures r.Ok? ==> TracebacksOf(sends, r.value.0, t, r.value.1)
    ensures r.Ok? ==> Interned(t, TracebackStrings(sends), r.value.1)
  {
    if sends == [] then
      assert t.data + Chunks([]) == t.data && Elems([]) == {};
      Ok(([], t))
    else
      var first :- SendTraceback(sends[0], t);
      assert forall i :: 1 <= i < |sends| ==> sends[i] == sends[1..][i - 1];
      var rest :- CompileTracebackInfo(sends[1..], first.1);
      TracebacksCons(sends, first.0, rest.0, t, first.1, rest.1);
      InternedTrans(t, SendStrings(sends[0]), first.1, TracebackStrings(sends[1..]), rest.1);
      Ok(([first.0] + rest.0, rest.1))
  }
}

=== FILE: utf8.dfy ===
/** UTF-8, the encoding `str.encode('utf8')` applies before a string literal
    is stored in the data table. Characters are Unicode scalar values. */
module Utf8 {
  import opened Wrappers

  type byte = x: int | 0 <= x < 256

  /** A continuation byte, 10xxxxxx. */
  predicate IsContinuation(b: byte) {
    0x80 <= b < 0xC0
  }

  /** The UTF-8 form of one scalar value: one byte below U+0080, two below
      U+0800, three below U+10000, four above. */
  function EncodeChar(c: char): (bs: seq<byte>)
    ensures 1 <= |bs| <= 4
    ensures (|bs| == 1) == (c as int < 0x80)
    ensures forall i :: 1 <= i < |bs| ==> IsContinuation(bs[i])
  {
    var n := c as int;
    if n < 0x80 then
      [n]
    else if n < 0x800 then
      [0xC0 + n / 64, 0x80 + n % 64]
    else if n < 0x1_0000 then
      [0xE0 + n / 64 / 64, 0x80 + (n / 64) % 64, 0x80 + n % 64]
    else
      [0xF0 + n / 64 / 64 / 64, 0x80 + (n / 64 / 64) % 64, 0x80 + (n / 64) % 64, 0x80 + n % 64]
  }

  /** The UTF-8 form of a string: the characters' forms, in order. */
  function Encode(s: string): (bs: seq<byte>)
    ensures |s| <= |bs| <= 4 * |s|
    ensures s == [] <==> bs == []
  {
    if s == [] then [] else EncodeChar(s[0]) + Encode(s[1..])
  }

  /** Decodes the character at the front of `bs` and says how many bytes it
      took; rejects stray continuation bytes, truncated and overlong forms,
      surrogates and values above U+10FFFF. */
  function DecodeFirst(bs: seq<byte>): (r: Option<(char, nat)>)
    requires |bs| > 0
    ensures r.Some? ==> 1 <= r.value.1 <= |bs|
  {
    var b0: int := bs[0];
    if b0 < 0x80 then
      Some((b0 as char, 1))
    else if 0xC0 <= b0 < 0xE0 && |bs| >= 2 && IsContinuation(bs[1]) then
      var n := (b0 - 0xC0) * 64 + (bs[1] as int - 0x80);
      if n >= 0x80 then Some((n as char, 2)) else None
    else if 0xE0 <= b0 < 0xF0 && |bs| >= 3 && IsContinuation(bs[1]) && IsContinuation(bs[2]) then
      var n := ((b0 - 0xE0) * 64 + (bs[1] as int - 0x80)) * 64 + (bs[2] as int - 0x80);
      if n >= 0x800 && !(0xD800 <= n < 0xE000) then Some((n as char, 3)) else None
    else if 0xF0 <= b0 < 0xF8 && |bs| >= 4 && IsContinuation(bs[1]) && IsContinuation(bs[2])
         && IsContinuation(bs[3]) then
      var n := (((b0 - 0xF0) * 64 + (bs[1] as int - 0x80)) * 64 + (bs[2] as int - 0x80)) * 64
               + (bs[3] as int - 0x80);
      if 0x1_0000 <= n <= 0x10_FFFF then Some((n as char, 4)) else None
    else
      None
  }

  /** Decodes a whole byte sequence, or fails on the first malformed form. */
  function Decode(bs: seq<byte>): (r: Option<string>)
    decreases |bs|
  {
    if bs == [] then Some([])
    else match DecodeFirst(bs)
      case None => None
      case Some((c, k)) =>
        match Decode(bs[k..])
        case None => None
        case Some(rest) => Some([c] + rest)
  }

  /** Decoding reads back exactly the character that was encoded, whatever
      follows it. */
  lemma DecodeFirstEncodeChar(c: char, rest: seq<byte>)
    ensures DecodeFirst(EncodeChar(c) + rest) == Some((c, |EncodeChar(c)|))
  {
    var n := c as int;
    var bs := EncodeChar(c) + rest;
    if n >= 0x1_0000 {
      var a, b, d := n / 64, n / 64 / 64, n / 64 / 64 / 64;
      assert n == a * 64 + n % 64;
      assert a == b * 64 + a % 64;
      assert b == d * 64 + b % 64;
      assert bs[0] == 0xF0 + d;
    } else if n >= 0x800 {
      var a, b := n / 64, n / 64 / 64;
      assert n == a * 64 + n % 64;
      assert a == b * 64 + a % 64;
    }
  }

  /** UTF-8 decoding undoes UTF-8 encoding. */
  lemma {:induction false} DecodeEncode(s: string)
    ensures Decode(Encode(s)) == Some(s)
  {
    if s != [] {
      var e := EncodeChar(s[0]);
      var tail := Encode(s[1..]);
      DecodeFirstEncodeChar(s[0], tail);
      assert (e + tail)[|e|..] == tail;
      DecodeEncode(s[1..]);
      assert [s[0]] + s[1..] == s;
    }
  }

  /** Different strings have different UTF-8 forms. */
  lemma EncodeInjective(s: string, t: string)
    requires Encode(s) == Encode(t)
    ensures s == t
  {
    DecodeEncode(s);
    DecodeEncode(t);
  }
}

=== FILE: wrappers.dfy ===
/** Failure-compatible result types shared by the compiler model. */
module Wrappers {

  /** An optional value; the Python source uses `None` or a falsy attribute. */
  datatype Option<+T> = None | Some(value: T)

  /** A value or the reason the compilation of a file was abandoned. */
  datatype Result<+T, +E> = Ok(value: T) | Err(error: E) {

    predicate IsFailure() {
      Err?
    }

    function PropagateFailure<U>(): Result<U, E>
      requires Err?
    {
      Err(error)
    }

    function Extract(): T
      requires Ok?
    {
      value
    }
  }
}
